=== FILE: README.md ===
# Marker job coordinator, modelled in Dafny

This project models the part of the Marker PDF-conversion servers that coordinates conversion jobs. There are four
copies of that code:

- the HuggingFace Space FastAPI server (`huggingface-space/app.py`), module `HfSpace`;
- the local FastAPI server (`public/scripts/marker_server.py`), module `LocalServer`;
- the FastAPI server that shells out to `marker_single` (`marker_server.py`), module `CliServer`;
- the Modal GPU function (`modal-deployment/modal_app.py`), module `ModalFn`.

The three FastAPI copies validate the upload and assign a request id. Each runs the conversion, stores the outcome in
an in-memory job dict, and hands the result to the first poll of `check_status`, which then deletes the record. The
Modal function checks neither the file name nor the size: it assigns a request id, converts, and returns a result dict
directly, with no registry.

The building blocks are shared:

- `Values`: Python's `None` and truthiness.
- `Text`: ASCII `lower`, `endswith`, `join`.
- `FormFlags`: both `str_to_bool` variants.
- `Jobs`: the registry, which is a `map<string, Job<X>>` with `Open`, `Settle` and `Poll`.
- `Paths`: pathlib joins, and `rmtree` over the set of existing paths.
- `MarkerCli`: the `marker_single` argument vector, a parser that reads it back, and the subprocess outcome.
- `GeminiEnv`: setting and restoring `GEMINI_API_KEY` around an in-process call.

The code fixes some behaviour that a reader might expect to be otherwise. The model follows the code in each case:

- All three servers advertise polling, but they convert inline inside the submit request. So the model's Submit
  inserts a `processing` record and settles it immediately. In every reachable state no record is `processing`
  (`HfSpace.CheckStatusPreservesInv`), although `Jobs.Poll` also covers a `processing` record.
- The local server keeps the caller's API key in the record's options until the record is polled away. Only the
  HuggingFace copy deletes `_gemini_key`.
- `GEMINI_API_KEY` is restored only if its original value was non-empty. An original empty string comes back unset.
- The CLI server never removes the output directory of a failed job.
- The HuggingFace and local servers leave the saved upload on disk when the conversion raises.

Inputs that the real program gets from outside are parameters:

- the uuid, with a precondition that it is not already a key of the registry;
- the converter's or subprocess's outcome, as `Jobs.Outcome` or `MarkerCli.Run`;
- a failure while saving the upload;
- the contents of the meta file;
- `BASE_URL`.

## Model

| member | source | states |
|---|---|---|
| `Text.Lower` | huggingface-space/app.py:59 | ASCII `lower()` keeps the length and lower-cases each character independently |
| `Text.IsPdfNameCharwise` | huggingface-space/app.py:91 | a name passes the `.pdf` guard exactly when it ends in a dot followed by p, d, f in either case |
| `FormFlags.StrToBool` | huggingface-space/app.py:55-59 | `None` is false; otherwise true exactly for "true", "1", "yes", "on" in any ASCII case |
| `FormFlags.StrToBoolCli` | marker_server.py:54-56 | the CLI server's variant is true exactly for "true", "1", "yes" in any ASCII case |
| `FormFlags.Examples` | public/scripts/marker_server.py:47-51 | the local copy gives the same readings: "TRUE", "On", "yes" true; "false", "", `None` false |
| `FormFlags.CliExamples` | marker_server.py:54-56 | "True" is true for the CLI variant, while "on" is false there and true for the other variant |
| `FormFlags.CliVariantDropsOn` | marker_server.py:54-56 | the CLI server's `str_to_bool` agrees with the other one except that "on" (any case) is false |
| `FormFlags.StrToBoolIgnoresCase` | marker_server.py:56 | both variants give the same answer for a string and its lower-cased form |
| `Jobs.Open` | huggingface-space/app.py:129-145 | a new record is `processing` with markdown and error both `None` (well formed) |
| `Jobs.Settle` | huggingface-space/app.py:151-161 | success sets `complete` and the markdown, an exception sets `error` and its message; the result is terminal and well formed, other fields unchanged |
| `Jobs.Poll` | huggingface-space/app.py:242-258 | 404 exactly for an unknown id; status only, and no change, for `processing`; payload plus deletion of exactly that id for a terminal record; other records untouched |
| `Jobs.PollPreserves` | huggingface-space/app.py:251-258 | polling keeps every remaining record well formed and terminal |
| `Jobs.SettleThenPoll` | huggingface-space/app.py:153-161 | the first poll after settling returns what the runner stored and leaves the registry without that id |
| `Jobs.AtMostOnceDelivery` | huggingface-space/app.py:251-258 | in any sequence of polls, once an id's payload has been returned every later poll of it answers 404 |
| `Jobs.FirstPollDelivers` | public/scripts/marker_server.py:209-216 | the first poll of a terminal id returns its markdown or error, whatever other ids were polled before |
| `Jobs.PollsNeverCreate` | huggingface-space/app.py:242-258 | in any poll sequence, an answer other than 404 is always about an id registered before the polls began |
| `Jobs.GoneStaysGone` | public/scripts/marker_server.py:203-204 | an id absent from the registry answers 404 on every later poll |
| `Jobs.PollIgnoresExtra` | huggingface-space/app.py:247-258 | the poll reply depends only on status, markdown and error, never on the options or paths kept in the record |
| `Jobs.AllTerminalNeverInFlight` | huggingface-space/app.py:247-249 | a registry with no `processing` record never answers with status only |
| `GeminiEnv.Restore` | public/scripts/marker_server.py:159-164 | afterwards the variable is either unset or the original, and it is non-empty exactly when the original was |
| `GeminiEnv.RestoreExactUnlessEmpty` | huggingface-space/app.py:224-229 | restoration gives back the original value in every case except an original empty string, which becomes unset |
| `HfSpace.Snapshot` | huggingface-space/app.py:132-142 | the stored options hold the format and langs as sent and each flag as `str_to_bool` reads it; `_gemini_key` carries a key only when `use_llm` is true, when it is the caller's key |
| `HfSpace.ConverterSeesKeyOnlyWithLlm` | huggingface-space/app.py:195-201 | for an admissible request, the converter sees the caller's key exactly when LLM mode is on and the process's own value otherwise |
| `HfSpace.Process` | huggingface-space/app.py:151-229 | settles the record, deletes `_gemini_key` on both paths, removes the upload only on success, restores the variable; other records unchanged |
| `HfSpace.Submit` | huggingface-space/app.py:73-186 | guards in order: non-PDF name 400, LLM without key 400, over 200 MiB 413, save failure 500; every rejection leaves the state unchanged; acceptance inserts exactly the new id as a terminal record holding the upload path and the options snapshot with `_gemini_key` deleted, and returns the id and `BASE_URL/check/<id>` |
| `HfSpace.CheckStatus` | huggingface-space/app.py:232-260 | 404 exactly for an unknown id; `processing` answers status only with no change; `complete` answers its markdown and `error` its error message, and either record is deleted; uploads and environment are untouched |
| `HfSpace.SubmitPreservesInv` | huggingface-space/app.py:129-164 | submission keeps every record well formed, terminal and free of a stored key |
| `HfSpace.CheckStatusPreservesInv` | huggingface-space/app.py:242-258 | polling keeps the same invariant and therefore never answers "processing" |
| `HfSpace.SubmitPollPoll` | huggingface-space/app.py:151-258 | submit with a converter returning text, then poll: the text; poll again: 404; the registry is as before |
| `LocalServer.CheckUrl` | public/scripts/marker_server.py:174 | `request_check_url` is `http://localhost:8000/status/` followed by the request id, and the id can be read back from it |
| `LocalServer.Snapshot` | public/scripts/marker_server.py:114-129 | the stored options hold the format, langs and `api_key` exactly as sent, and each of the five flags as `str_to_bool` reads it |
| `LocalServer.Process` | public/scripts/marker_server.py:132-168 | settles the record, removes the upload only on success, restores the variable, leaves the stored options as they were |
| `LocalServer.Submit` | public/scripts/marker_server.py:65-190 | non-PDF name 400 and oversize 413 with no record inserted, with no key guard; acceptance inserts exactly the new id as a terminal record holding the upload path and the options snapshot, key included |
| `LocalServer.ConverterEnvFollowsForm` | public/scripts/marker_server.py:135-137 | the converter sees the key only with LLM mode on and a non-empty key |
| `LocalServer.CheckStatus` | public/scripts/marker_server.py:193-218 | 404 exactly for an unknown id; status only with no change while processing; a completed job answers its markdown and an errored one its error, and the record is deleted |
| `LocalServer.ApiKeyStaysUntilPolled` | public/scripts/marker_server.py:114-129 | the key stays in the record after conversion, the poll reply does not depend on it, and the poll removes the record |
| `MarkerCli.Argv` | modal-deployment/modal_app.py:82-97 | the argument vector is the five-word base followed by `--langs <langs>` (non-empty langs only), `--force_ocr`, `--paginate`, `--disable_image_extraction` in that order |
| `MarkerCli.ParseInvertsArgv` | modal-deployment/modal_app.py:82-97 | reading the argument vector back yields the invocation, with empty langs read as absent |
| `CliServer.Command` | marker_server.py:113-126 | the command is `marker_single`, the PDF, the output directory, `--output_format` and the format, then `--langs <langs>` for non-empty langs, `--paginate`, `--disable_image_extraction`, in that order; it reads back as those options and never asks for `--force_ocr` |
| `CliServer.CommandLine` | marker_server.py:138 | the stored command line is the five base words, then the optional flags, each word separated from the next by one space |
| `CliServer.CommandIgnoresOtherFields` | marker_server.py:105-126 | `format_lines`, `redo_inline_math`, `use_llm` and the key never change the command |
| `CliServer.ChildKeyOnlyWithLlm` | marker_server.py:129-131 | the child's environment gets the caller's key only with LLM mode on and a non-empty key |
| `CliServer.Classify` | marker_server.py:154-179 | exit 0 with a markdown file completes with the first file's text; exit 0 without one, a non-zero exit, a timeout and an exception each give their fixed error message |
| `CliServer.PdfPathAsWritten` | marker_server.py:100 | as written, an absolute file name is used as the path itself; any other name lands inside the upload directory; a slash-free name gives the same path as the corrected join |
| `CliServer.PdfPath` | marker_server.py:100 | the corrected upload path always lies inside the job's upload directory and keeps the file's name |
| `CliServer.AbsoluteNameIsPdf` | marker_server.py:87 | the absolute name `/tmp/x.pdf` passes the `.pdf` guard |
| `CliServer.AbsoluteFilenameEscapesUploadDir` | marker_server.py:100 | as written, for every job id the upload for `/tmp/x.pdf` is saved at `/tmp/x.pdf`, outside the upload directory, and survives its `rmtree` |
| `CliServer.Admit` | marker_server.py:133-185 | once the PDF is saved: exactly the new id is inserted as a terminal record, complete with the first markdown file's text exactly when the run succeeded, else an error with the classified message, holding the output directory; nothing under the upload directory remains and the output directory exists; no other path is added or removed except a PDF saved outside the upload directory, which remains; the environment is unchanged |
| `CliServer.Submit` | marker_server.py:69-192 | a missing or non-PDF name gives 400 with no change; otherwise the request is accepted with `http://localhost:8000/status/<id>`, the state is the accepted path run on the corrected upload path and the joined command line, and the only path the request adds is the output directory |
| `CliServer.SubmitAsWritten` | marker_server.py:69-192 | as written: a missing or non-PDF name gives 400 with no change; when `open` on `job_upload_dir / file.filename` raises, a 500 with no record and both job directories created; otherwise the corrected reply, the accepted path run on the as-written upload path, and at most the output directory and that path added |
| `CliServer.FailedSaveLeaksJobDirs` | marker_server.py:94-103 | as written, after a save that raises the id answers 404 and both job directories remain, with no record left to remove them |
| `CliServer.EscapedUploadSurvives` | marker_server.py:100-215 | as written, an accepted upload whose path falls outside both job directories is still on disk after the request and after the job is polled, whatever the run gave |
| `CliServer.AsWrittenRoundLeavesUpload` | marker_server.py:87-215 | as written, a client naming its file `/tmp/x.pdf` is accepted and `/tmp/x.pdf` remains after the request and after the poll |
| `CliServer.KeyNeverRecorded` | marker_server.py:128-141 | requests differing only in `use_llm` and the key leave identical replies and state for the same subprocess outcome, so the server's own code never stores the key; whatever `marker_single` prints is stored as it is |
| `CliServer.CheckStatus` | marker_server.py:195-221 | 404 exactly for an unknown id; status only with no change while processing; a completed job answers its markdown and its output directory is removed with its record; an errored job answers its error, its record is deleted and its files are left as they are |
| `CliServer.CompletedRoundLeavesNothing` | marker_server.py:180-215 | with the corrected upload path, after a successful job is polled, nothing of its upload or output directory remains and the registry is as before |
| `CliServer.CompletedAdmitLeavesNothing` | marker_server.py:208-215 | polling a completed job removes its record and output directory, so nothing of the job remains on disk |
| `CliServer.FailedRoundKeepsOutputDir` | marker_server.py:216-219 | after a failed job is polled, its record is gone but its output directory remains |
| `ModalFn.Command` | modal-deployment/modal_app.py:82-97 | the command is the five base words, then `--langs <langs>` for non-empty langs, `--force_ocr`, `--paginate`, and `--disable_image_extraction` exactly when images are not to be extracted, in that order; it reads back as the options given |
| `ModalFn.Result` | modal-deployment/modal_app.py:107-151 | every dict carries the request id; `error` is present exactly when `success` is false; success exactly for exit 0 with a markdown file, with its text, `<stem>.md` and `{}` without a meta file; fixed messages for a failed exit, no file, a timeout and an exception |
| `ModalFn.Convert` | modal-deployment/modal_app.py:66-155 | for an input path of either join: when `write_bytes` raises, the dict carries `Unexpected error: ` and its message and the file system comes back unchanged; otherwise the classified dict, with the file system unchanged when the input lies in the temp directory and with exactly the input added when it does not |
| `ModalFn.ConvertPdf` | modal-deployment/modal_app.py:66-155 | with the corrected join, the call returns the write error's dict or the classified dict, and leaves the file system exactly as it found it |
| `ModalFn.ConvertPdfAsWritten` | modal-deployment/modal_app.py:66-155 | as written, the call returns the write error's dict or the classified dict and adds at most the input path; that path is there afterwards exactly when it lies outside the temp directory and was either written by the call or there before |
| `ModalFn.Stem` | modal-deployment/modal_app.py:136 | the stem is a prefix of the name; when shorter, it stops at the last dot, which is neither the first nor the last character; otherwise the name has no such dot |
| `ModalFn.StemDropsExtension` | modal-deployment/modal_app.py:136 | the stem of `base.ext` is `base` for a non-empty base and a dot-free extension |
| `ModalFn.ResultNameSwapsExtension` | modal-deployment/modal_app.py:123-138 | for an upload named `<base>.pdf` the result's file name is `<base>.md` |
| `ModalFn.InputFileAsWritten` | modal-deployment/modal_app.py:73 | as written, an absolute file name is used as the path itself; any other name lands inside the temp directory; a slash-free name gives the same path as the corrected join |
| `ModalFn.InputFile` | modal-deployment/modal_app.py:73 | the corrected input path always lies inside the request's temp directory and keeps the file's name |
| `ModalFn.AbsoluteFilenameSurvivesCleanup` | modal-deployment/modal_app.py:73 | as written, the absolute name `/x.pdf` puts the input outside the temp directory, so once written the cleanup leaves it |
| `Paths.Name` | modal-deployment/modal_app.py:136 | `PurePath.name`, which `stem` starts from: the slash-free text after the last slash, a suffix of the path |
| `Paths.JoinPath` | marker_server.py:100 | pathlib's `/`: an empty name gives the directory, an absolute name replaces it, and any other name follows the directory and one slash |
| `Paths.RemoveTree` | modal-deployment/modal_app.py:152-155 | `rmtree` removes the directory and everything below it and nothing else |

## Findings

| source | as written | input that shows it | evidently intended | confidence | as-written member | corrected member |
|---|---|---|---|---|---|---|
| marker_server.py:100 | `job_upload_dir / file.filename` with the client's file name | file name `/tmp/x.pdf`: pathlib drops the job directory, so the PDF is written to `/tmp/x.pdf` and `rmtree(job_upload_dir)` does not remove it; `../x.pdf` escapes the same way, through the operating system, to `/tmp/marker_uploads/x.pdf` | the upload is saved inside the per-job directory and removed with it | medium, not executed | `CliServer.SubmitAsWritten` on `CliServer.PdfPathAsWritten`, shown by `CliServer.AsWrittenRoundLeavesUpload` | `CliServer.Submit` on `CliServer.PdfPath`, with `CliServer.CompletedRoundLeavesNothing` proving nothing of a completed job remains |
| modal-deployment/modal_app.py:73 | `temp_dir / filename` with the caller's `filename` | `filename="/x.pdf"`: the input is written to `/x.pdf`, outside `temp_dir`, and survives the `finally` cleanup | the input lives inside the request's temp directory, so every return path removes it | high, not executed | `ModalFn.ConvertPdfAsWritten` on `ModalFn.InputFileAsWritten`, shown by `ModalFn.AbsoluteFilenameSurvivesCleanup` | `ModalFn.ConvertPdf` on `ModalFn.InputFile`, proving the file system is left unchanged |

## Left out

- FastAPI routing, CORS, uvicorn start-up, banners, `print` logging and the health endpoints are glue with no logic in them.
- The Modal `marker_endpoint`, `health`, the local `test` entrypoint and the Modal decorators are left out. So are `.remote` calls, GPU settings and volumes, which are platform concerns.
- `convert_single_pdf`, `load_all_models` and the `marker_single` binary are foreign code. Their outcome is an input.
- The subprocess timeout values (300 s, 550 s) are left out. A timeout is modelled only as the `TimedOut` outcome.
- uuid generation is replaced by an `id` parameter that must not already be a key of the registry.
- Uploaded bytes are not modelled. Only the byte count matters, for the 200 MiB guard, and only in the two servers that have that guard.
- File I/O is reduced to a set of existing paths. These failures are not modelled: `os.remove`, `rmtree`, writes in the CLI server other than the `open` of the as-written upload path, and reading markdown files. In the Modal function the input write is modelled by its error; a later failure there falls under the `Raised` outcome, which changes only the dict.
- pathlib normalisation is not modelled, so paths are plain strings. This covers trailing and repeated slashes and `.`/`..` components. The corrected joins keep only the last component, so `..` cannot escape there either.
- `tempfile.gettempdir()` is taken to be `/tmp`.
- JSON parsing of the Modal meta file is left out. The metadata is the file's text.
- `BASE_URL` is read from the environment at start-up. Here it is a parameter.
- The HuggingFace and local servers crash on a `None` upload file name, because they call `.lower()` on it before any guard. The model's file name there is always a string.
- The CLI server's `str_to_bool` is not modelled on `None`, because the form fields always default to strings.
- The 500 path after a record has been inserted is not modelled: nothing between insertion and the response can raise in the model.
- Concurrency, background tasks, retention sweeps and durable stores are left out, because the code has none of them. The race on the process-wide `GEMINI_API_KEY` between simultaneous requests is left out for the same reason.
- `lower()` is restricted to ASCII. Unicode case folding is not modelled.
- `ModalFn.ConvertPdf`: its unchanged-file-system promise holds for the corrected join only. As written, the call can leave the input behind, as `ModalFn.ConvertPdfAsWritten` states.
- `CliServer.CompletedRoundLeavesNothing`: its promise holds for the corrected join only. As written, a job can leave its upload behind, as `CliServer.SubmitAsWritten` and `CliServer.AsWrittenRoundLeavesUpload` state.
- `CliServer.SubmitAsWritten`: whether `open` raises is an input, not derived from the name; it raises for a relative name such as `a/b.pdf` whose directory was never created. Paths are not normalised, so for `../x.pdf` the model places the upload inside the upload directory and removes it, while the operating system writes `/tmp/marker_uploads/x.pdf`, which outlives the job. Only the absolute-name escape is exhibited.

=== FILE: cli_server.dfy ===
/**
 * The CLI-driving server (`marker_server.py`): it saves the upload under a
 * per-job directory, builds a `marker_single` command line, runs it with the
 * key in a copy of the environment, classifies the exit, and removes the
 * upload directory whatever happened. The output directory is removed when
 * a completed job is polled.
 */
module CliServer {
  import opened Values
  import opened Text
  import opened FormFlags
  import opened Jobs
  import opened Paths
  import opened MarkerCli
  import GeminiEnv

  /** `tempfile.gettempdir()` is taken to be `/tmp`. */
  const UploadRoot := "/tmp/marker_uploads"
  const OutputRoot := "/tmp/marker_outputs"
  const StatusUrlPrefix := "http://localhost:8000/status/"

  const OnlyPdf := "Only PDF files are supported"
  const NoMarkdown := "No markdown file generated"
  const MarkerFailed := "Marker failed: "
  const TimedOutMessage := "Conversion timed out (5 minutes)"
  /** The body FastAPI sends for an exception the handler does not catch. */
  const InternalError := "Internal Server Error"

  /** The multipart request; the upload's file name may be missing. */
  datatype Form = Form(
    filename: Option<string>, outputFormat: string, langs: Option<string>,
    paginate: string, formatLines: string, useLlm: string, disableImageExtraction: string,
    redoInlineMath: string, apiKey: Option<string>)

  /** The server-specific part of a record: the saved PDF, the output directory, the command line as one string. */
  datatype Artifacts = Artifacts(pdfPath: string, outputDir: string, command: string)

  /** Process state: the job dict, the paths that exist, and this process's `GEMINI_API_KEY`. */
  datatype Server = Server(jobs: Registry<Artifacts>, fs: set<string>, geminiEnv: Option<string>)

  function UploadDir(id: string): string
  {
    UploadRoot + "/" + id
  }

  function OutputDir(id: string): string
  {
    OutputRoot + "/" + id
  }

  /**
   * `job_upload_dir / file.filename`, as written: an absolute name is taken
   * as it is, any other name lands inside the upload directory, and a
   * slash-free name gives the same path as the corrected join.
   */
  function PdfPathAsWritten(id: string, filename: string): (p: string)
    ensures filename != "" && filename[0] == '/' ==> p == filename
    ensures filename == "" || filename[0] != '/' ==> Inside(p, UploadDir(id))
    ensures '/' !in filename ==> p == PdfPath(id, filename)
  {
    NameOfSlashFree(filename);
    JoinPath(UploadDir(id), filename)
  }

  /** The upload path with only the last component of the client's file name kept. */
  function PdfPath(id: string, filename: string): (p: string)
    ensures Inside(p, UploadDir(id))
    ensures Name(filename) != "" ==> Name(p) == Name(filename)
  {
    var n := Name(filename);
    JoinComponentStaysInside(UploadDir(id), n);
    if n == "" then JoinPath(UploadDir(id), n)
    else
      NameAfterSlash(UploadDir(id), n);
      JoinPath(UploadDir(id), n)
  }

  /** The absolute name `/tmp/x.pdf` joins to itself, outside both job directories. */
  lemma AbsoluteNameEscapes(id: string)
    ensures PdfPathAsWritten(id, "/tmp/x.pdf") == "/tmp/x.pdf"
    ensures !Inside("/tmp/x.pdf", UploadDir(id)) && !Inside("/tmp/x.pdf", OutputDir(id))
  {
    var p := "/tmp/x.pdf";
    assert p[0] == '/';
    assert |UploadDir(id) + "/"| > |p| && |OutputDir(id) + "/"| > |p|;
  }

  /**
   * With the as-written join, a client file name that is an absolute path
   * puts the upload outside the job's directory, so the `rmtree` of that
   * directory leaves it on disk.
   */
  lemma AbsoluteFilenameEscapesUploadDir(fs: set<string>, id: string)
    ensures var p := PdfPathAsWritten(id, "/tmp/x.pdf");
      && p == "/tmp/x.pdf"
      && p in RemoveTree(fs + {UploadDir(id), OutputDir(id), p}, UploadDir(id))
  {
    AbsoluteNameEscapes(id);
  }

  /** The same absolute name passes the `.pdf` guard. */
  lemma AbsoluteNameIsPdf()
    ensures IsPdfName("/tmp/x.pdf")
  {
    var name := "/tmp/x.pdf";
    LowerIs(name, name);
    assert name[6..] == ".pdf";
  }

  /**
   * The command line: base words, then `--langs` when langs is non-empty,
   * `--paginate`, `--disable_image_extraction`. Nothing else in the form
   * reaches it, and it never asks for `--force_ocr`.
   */
  function Command(pdf: string, outDir: string, form: Form): (cmd: seq<string>)
    ensures Parse(cmd) == Some(Invocation(pdf, outDir, form.outputFormat,
      Flags(if Truthy(form.langs) then form.langs else None, false,
            StrToBoolCli(form.paginate), StrToBoolCli(form.disableImageExtraction))))
    ensures |cmd| >= 5 && cmd[..5] == ["marker_single", pdf, outDir, "--output_format", form.outputFormat]
    ensures cmd[5..] == LangsArgs(form.langs) + Switch(StrToBoolCli(form.paginate), "--paginate")
                        + Switch(StrToBoolCli(form.disableImageExtraction), "--disable_image_extraction")
  {
    var inv := Invocation(pdf, outDir, form.outputFormat,
      Flags(form.langs, false, StrToBoolCli(form.paginate), StrToBoolCli(form.disableImageExtraction)));
    ParseInvertsArgv(inv);
    assert Argv(inv)[5..] == FlagArgs(inv.flags);
    Argv(inv)
  }

  /** Five leading words joined by spaces, then the rest after one more space. */
  lemma JoinFiveThen(cmd: seq<string>)
    requires |cmd| >= 5
    ensures var tail := if cmd[5..] == [] then "" else " " + Join(cmd[5..], " ");
      Join(cmd, " ") == cmd[0] + (" " + (cmd[1] + (" " + (cmd[2] + (" " + (cmd[3] + (" " + (cmd[4] + tail))))))))
  {
    var tail := if cmd[5..] == [] then "" else " " + Join(cmd[5..], " ");
    if cmd[5..] == [] {
      assert cmd[4..] == [cmd[4]];
    } else {
      JoinStep(cmd, 4, " ");
    }
    assert Join(cmd[4..], " ") == cmd[4] + tail;
    JoinStep(cmd, 3, " ");
    JoinStep(cmd, 2, " ");
    JoinStep(cmd, 1, " ");
    JoinStep(cmd, 0, " ");
    assert cmd[0..] == cmd;
  }

  /**
   * The command line as the record stores it: the five base words, then
   * the optional flags, each word after a single space.
   */
  function CommandLine(pdf: string, outDir: string, form: Form): (line: string)
    ensures var flags := Command(pdf, outDir, form)[5..];
      var tail := if flags == [] then "" else " " + Join(flags, " ");
      line == "marker_single" + (" " + (pdf + (" " + (outDir + (" " + ("--output_format" + (" " + (form.outputFormat + tail))))))))
  {
    var cmd := Command(pdf, outDir, form);
    assert cmd[0] == "marker_single" && cmd[1] == pdf && cmd[2] == outDir;
    assert cmd[3] == "--output_format" && cmd[4] == form.outputFormat;
    JoinFiveThen(cmd);
    Join(cmd, " ")
  }

  /** `format_lines`, `redo_inline_math`, `use_llm` and the key never change the command line. */
  lemma CommandIgnoresOtherFields(pdf: string, outDir: string, form: Form, formatLines: string, redoInlineMath: string, useLlm: string, apiKey: Option<string>)
    ensures Command(pdf, outDir, form) ==
      Command(pdf, outDir, form.(formatLines := formatLines, redoInlineMath := redoInlineMath, useLlm := useLlm, apiKey := apiKey))
  {
  }

  /** `GEMINI_API_KEY` in the child's copy of the environment. */
  function ChildGeminiKey(parent: Option<string>, form: Form): Option<string>
  {
    GeminiEnv.DuringCall(parent, StrToBoolCli(form.useLlm), form.apiKey)
  }

  /** The child gets the caller's key exactly when LLM mode is on and the key is non-empty. */
  lemma ChildKeyOnlyWithLlm(parent: Option<string>, form: Form)
    ensures ChildGeminiKey(parent, form) == form.apiKey <==>
      (StrToBoolCli(form.useLlm) && Truthy(form.apiKey)) || parent == form.apiKey
  {
  }

  /**
   * The record update after `subprocess.run`: exit 0 with a markdown file
   * completes with the first file's text; every other outcome is an error
   * with a fixed message.
   */
  function Classify(run: Run): (o: Outcome)
    ensures o.Success? <==> run.Exited? && run.code == 0 && |run.markdownFiles| > 0
    ensures o.Success? ==> o.text == run.markdownFiles[0]
    ensures run.Exited? && run.code == 0 && |run.markdownFiles| == 0 ==> o == Failure(NoMarkdown)
    ensures run.Exited? && run.code != 0 ==> o == Failure(MarkerFailed + run.stderr)
    ensures run.TimedOut? ==> o == Failure(TimedOutMessage)
    ensures run.Raised? ==> o == Failure(run.message)
  {
    match run
    case Exited(code, stderr, files) =>
      if code == 0 then
        if |files| > 0 then Success(files[0]) else Failure(NoMarkdown)
      else Failure(MarkerFailed + stderr)
    case TimedOut => Failure(TimedOutMessage)
    case Raised(m) => Failure(m)
  }

  lemma {:induction false} OutputDirNotInUploadDir(id: string)
    ensures !Inside(OutputDir(id), UploadDir(id))
  {
    var o := OutputDir(id);
    var u := UploadDir(id);
    assert o[12] == 'o' && u[12] == 'u';
    assert (u + "/")[12] == 'u';
  }

  /**
   * After the job's directories and PDF are created, `rmtree` of the upload
   * directory keeps the output directory, and the PDF only when it was
   * saved outside the upload directory.
   */
  lemma UploadCleanup(fs: set<string>, id: string, pdf: string)
    ensures var r := RemoveTree(fs + {UploadDir(id), OutputDir(id), pdf}, UploadDir(id));
      && OutputDir(id) in r
      && (Inside(pdf, UploadDir(id)) ==> r <= fs + {OutputDir(id)})
      && (!Inside(pdf, UploadDir(id)) ==> pdf in r && r <= fs + {OutputDir(id), pdf})
  {
    OutputDirNotInUploadDir(id);
  }

  predicate AcceptsName(filename: Option<string>)
  {
    filename.Some? && IsPdfName(filename.value)
  }

  /**
   * The accepted path once the PDF is saved at `pdf`: insert a record
   * holding the command line, settle it from the subprocess outcome, and
   * remove the upload directory. A PDF saved outside that directory is
   * the one path besides the output directory that the job leaves behind.
   */
  function Admit(s: Server, id: string, pdf: string, commandLine: string, run: Run): (r: Server)
    requires id !in s.jobs
    ensures r.geminiEnv == s.geminiEnv
    ensures r.jobs.Keys == s.jobs.Keys + {id}
    ensures forall k :: k in s.jobs ==> r.jobs[k] == s.jobs[k]
    ensures WellFormed(r.jobs[id]) && r.jobs[id].status != Processing
    ensures r.jobs[id].status == Complete <==> Classify(run).Success?
    ensures r.jobs[id].status == Complete ==> r.jobs[id].markdown == Some(run.markdownFiles[0])
    ensures r.jobs[id].status == Error ==> r.jobs[id].error == Some(Classify(run).message)
    ensures r.jobs[id].extra == Artifacts(pdf, OutputDir(id), commandLine)
    // the upload directory and everything saved in it are gone; the output directory stays
    ensures forall p :: p in r.fs ==> !Inside(p, UploadDir(id))
    ensures OutputDir(id) in r.fs
    ensures forall p :: p in s.fs && !Inside(p, UploadDir(id)) ==> p in r.fs
    ensures Inside(pdf, UploadDir(id)) ==> r.fs <= s.fs + {OutputDir(id)}
    ensures !Inside(pdf, UploadDir(id)) ==> pdf in r.fs && r.fs <= s.fs + {OutputDir(id), pdf}
  {
    var up := UploadDir(id);
    var out := OutputDir(id);
    UploadCleanup(s.fs, id, pdf);
    Server(s.jobs[id := Settle(Open(Artifacts(pdf, out, commandLine)), Classify(run))],
           RemoveTree(s.fs + {up, out, pdf}, up), s.geminiEnv)
  }

  /**
   * `POST /marker`: reject a missing or non-PDF name; otherwise create the
   * job directories, save the PDF, insert a `processing` record holding the
   * joined command line, settle it from the subprocess outcome, and remove
   * the upload directory. The process environment is never changed.
   */
  function Submit(s: Server, form: Form, id: string, run: Run): (r: Submitted<Server>)
    requires id !in s.jobs
    ensures !AcceptsName(form.filename) ==> r == Submitted(Rejected(400, OnlyPdf), s)
    ensures r.reply.Accepted? <==> AcceptsName(form.filename)
    ensures r.state.geminiEnv == s.geminiEnv
    ensures r.reply.Accepted? ==>
      && r.reply == Accepted(id, StatusUrlPrefix + id)
      && r.state == Admit(s, id, PdfPath(id, form.filename.value), CommandLine(PdfPath(id, form.filename.value), OutputDir(id), form), run)
      && r.state.fs <= s.fs + {OutputDir(id)}
  {
    if !AcceptsName(form.filename) then Submitted(Rejected(400, OnlyPdf), s)
    else
      var pdf := PdfPath(id, form.filename.value);
      Submitted(Accepted(id, StatusUrlPrefix + id), Admit(s, id, pdf, CommandLine(pdf, OutputDir(id), form), run))
  }

  /**
   * `POST /marker` as written: the same guard, with the PDF saved at
   * `job_upload_dir / file.filename`. Whether `open` on that path raises is
   * the file system's answer, given as `openFails` (it does for `a/b.pdf`,
   * whose `a` was never created). Nothing catches that error: the reply is
   * a 500, no record is inserted, and both job directories stay. Otherwise
   * the job can leave the saved path behind besides its output directory.
   */
  function SubmitAsWritten(s: Server, form: Form, id: string, run: Run, openFails: bool): (r: Submitted<Server>)
    requires id !in s.jobs
    ensures !AcceptsName(form.filename) ==> r == Submitted(Rejected(400, OnlyPdf), s)
    ensures AcceptsName(form.filename) && openFails ==>
      r == Submitted(Rejected(500, InternalError), s.(fs := s.fs + {UploadDir(id), OutputDir(id)}))
    ensures r.reply.Accepted? <==> AcceptsName(form.filename) && !openFails
    ensures !openFails ==> r.reply == Submit(s, form, id, run).reply
    ensures r.state.geminiEnv == s.geminiEnv
    ensures r.reply.Accepted? ==>
      && r.state == Admit(s, id, PdfPathAsWritten(id, form.filename.value),
                          CommandLine(PdfPathAsWritten(id, form.filename.value), OutputDir(id), form), run)
      && r.state.fs <= s.fs + {OutputDir(id), PdfPathAsWritten(id, form.filename.value)}
  {
    if !AcceptsName(form.filename) then Submitted(Rejected(400, OnlyPdf), s)
    else if openFails then Submitted(Rejected(500, InternalError), s.(fs := s.fs + {UploadDir(id), OutputDir(id)}))
    else
      var pdf := PdfPathAsWritten(id, form.filename.value);
      Submitted(Accepted(id, StatusUrlPrefix + id), Admit(s, id, pdf, CommandLine(pdf, OutputDir(id), form), run))
  }

  /**
   * As written, a save that raises leaves both job directories on disk with
   * no record to reach them: the id answers 404 and nothing is removed.
   */
  lemma {:induction false} FailedSaveLeaksJobDirs(s: Server, form: Form, id: string, run: Run)
    requires id !in s.jobs && AcceptsName(form.filename)
    ensures var sub := SubmitAsWritten(s, form, id, run, true);
      var after := CheckStatus(sub.state, id);
      && sub.reply == Rejected(500, InternalError)
      && after.reply == NotFound
      && UploadDir(id) in after.state.fs && OutputDir(id) in after.state.fs
  {
    var sub := SubmitAsWritten(s, form, id, run, true);
    assert sub.state.jobs == s.jobs;
  }

  /**
   * The key and LLM switch reach nothing the server keeps: two requests
   * that differ only in them leave identical replies and state.
   */
  lemma KeyNeverRecorded(s: Server, form: Form, id: string, run: Run, useLlm: string, apiKey: Option<string>)
    requires id !in s.jobs
    ensures Submit(s, form, id, run) == Submit(s, form.(useLlm := useLlm, apiKey := apiKey), id, run)
  {
    if AcceptsName(form.filename) {
      CommandIgnoresOtherFields(PdfPath(id, form.filename.value), OutputDir(id), form, form.formatLines, form.redoInlineMath, useLlm, apiKey);
    }
  }

  /**
   * `GET /status/{id}`: the registry poll; a completed job's output directory
   * is removed with it, a failed job's is not.
   */
  function CheckStatus(s: Server, id: string): (r: Checked<Server>)
    ensures r.reply == NotFound <==> id !in s.jobs
    ensures id in s.jobs && s.jobs[id].status == Processing ==> r.reply == InFlight && r.state == s
    ensures id in s.jobs && s.jobs[id].status == Complete ==> r.reply == Finished(s.jobs[id].markdown)
    ensures id in s.jobs && s.jobs[id].status == Error ==> r.reply == Errored(s.jobs[id].error)
    ensures id in s.jobs && s.jobs[id].status == Complete ==> r.state.fs == RemoveTree(s.fs, s.jobs[id].extra.outputDir)
    ensures r.reply == InFlight ==> r.state == s
    ensures IsDelivery(r.reply) ==> r.state.jobs == s.jobs - {id}
    ensures r.reply.Finished? ==> r.state.fs == RemoveTree(s.fs, s.jobs[id].extra.outputDir)
    ensures !r.reply.Finished? ==> r.state.fs == s.fs
    ensures r.state.geminiEnv == s.geminiEnv
  {
    var p := Poll(s.jobs, id);
    var fs := if p.reply.Finished? then RemoveTree(s.fs, s.jobs[id].extra.outputDir) else s.fs;
    Checked(p.reply, Server(p.jobs, fs, s.geminiEnv))
  }

  /**
   * A completed job leaves nothing behind once polled: neither its upload
   * nor its output directory remains, and no path was added.
   */
  lemma {:induction false} CompletedRoundLeavesNothing(s: Server, form: Form, id: string, run: Run)
    requires id !in s.jobs && AcceptsName(form.filename) && Classify(run).Success?
    ensures var after := CheckStatus(Submit(s, form, id, run).state, id);
      && after.reply == Finished(Some(run.markdownFiles[0]))
      && (forall p :: p in after.state.fs ==> !Inside(p, UploadDir(id)) && !Inside(p, OutputDir(id)))
      && after.state.fs <= s.fs
      && after.state.jobs == s.jobs
  {
    var pdf := PdfPath(id, form.filename.value);
    CompletedAdmitLeavesNothing(s, id, pdf, CommandLine(pdf, OutputDir(id), form), run);
  }

  lemma {:induction false} CompletedAdmitLeavesNothing(s: Server, id: string, pdf: string, commandLine: string, run: Run)
    requires id !in s.jobs && Inside(pdf, UploadDir(id)) && Classify(run).Success?
    ensures var after := CheckStatus(Admit(s, id, pdf, commandLine, run), id);
      && after.reply == Finished(Some(run.markdownFiles[0]))
      && (forall p :: p in after.state.fs ==> !Inside(p, UploadDir(id)) && !Inside(p, OutputDir(id)))
      && after.state.fs <= s.fs
      && after.state.jobs == s.jobs
  {
    var st := Admit(s, id, pdf, commandLine, run);
    assert st.jobs[id].status == Complete && st.jobs[id].extra.outputDir == OutputDir(id);
    var after := CheckStatus(st, id);
    assert after.state.fs == RemoveTree(st.fs, OutputDir(id));
    assert after.state.jobs.Keys == s.jobs.Keys;
  }

  /**
   * A failed job's output directory outlives its record: after the error is
   * polled the record is gone but the directory is still there.
   */
  lemma {:induction false} FailedRoundKeepsOutputDir(s: Server, form: Form, id: string, run: Run)
    requires id !in s.jobs && AcceptsName(form.filename) && Classify(run).Failure?
    ensures var after := CheckStatus(Submit(s, form, id, run).state, id);
      && after.reply == Errored(Some(Classify(run).message))
      && id !in after.state.jobs
      && OutputDir(id) in after.state.fs
  {
  }

  /**
   * As written, an accepted upload whose joined path falls outside both job
   * directories is still on disk after the request and after the job has
   * been polled away, whatever the conversion gave.
   */
  lemma {:induction false} EscapedUploadSurvives(s: Server, form: Form, id: string, run: Run)
    requires id !in s.jobs && AcceptsName(form.filename)
    requires !Inside(PdfPathAsWritten(id, form.filename.value), UploadDir(id))
    requires !Inside(PdfPathAsWritten(id, form.filename.value), OutputDir(id))
    ensures var sub := SubmitAsWritten(s, form, id, run, false);
      && PdfPathAsWritten(id, form.filename.value) in sub.state.fs
      && PdfPathAsWritten(id, form.filename.value) in CheckStatus(sub.state, id).state.fs
  {
    var p := PdfPathAsWritten(id, form.filename.value);
    var a := Admit(s, id, p, CommandLine(p, OutputDir(id), form), run);
    assert SubmitAsWritten(s, form, id, run, false).state == a;
    assert a.jobs[id].extra.outputDir == OutputDir(id);
  }

  /**
   * A client named `/tmp/x.pdf` is accepted, and its upload outlives the
   * job; `/tmp` exists, so saving there does not raise.
   */
  lemma AsWrittenRoundLeavesUpload(s: Server, form: Form, id: string, run: Run)
    requires id !in s.jobs && form.filename == Some("/tmp/x.pdf")
    ensures var sub := SubmitAsWritten(s, form, id, run, false);
      && sub.reply.Accepted?
      && "/tmp/x.pdf" in sub.state.fs
      && "/tmp/x.pdf" in CheckStatus(sub.state, id).state.fs
  {
    AbsoluteNameIsPdf();
    AbsoluteNameEscapes(id);
    EscapedUploadSurvives(s, form, id, run);
  }
}

=== FILE: form_flags.dfy ===
/**
 * The two `str_to_bool` helpers that turn multipart form strings into
 * booleans. The FastAPI servers accept `None` and four spellings; the
 * CLI-driving server has no `None` case and does not accept "on".
 */
module FormFlags {
  import opened Values
  import opened Text

  /** Spellings the FastAPI servers read as true, after lower-casing. */
  const Affirmative: set<string> := {"true", "1", "yes", "on"}

  /** Spellings the CLI-driving server reads as true, after lower-casing. */
  const AffirmativeCli: set<string> := {"true", "1", "yes"}

  /** `s` equals `word` once ASCII case is ignored, compared character by character. */
  predicate SameIgnoringCase(s: string, word: string)
  {
    |s| == |word| && forall i :: 0 <= i < |s| ==> LowerChar(s[i]) == word[i]
  }

  /**
   * `str_to_bool` of the HuggingFace and local servers: `None` is false, and
   * a string is true exactly when it spells "true", "1", "yes" or "on" in
   * any mix of ASCII case.
   */
  function StrToBool(v: Option<string>): (r: bool)
    ensures r <==>
      && v.Some?
      && (|| SameIgnoringCase(v.value, "true") || SameIgnoringCase(v.value, "1")
          || SameIgnoringCase(v.value, "yes") || SameIgnoringCase(v.value, "on"))
  {
    if v.None? then false
    else
      SameIgnoringCaseIsLower(v.value, "true");
      SameIgnoringCaseIsLower(v.value, "1");
      SameIgnoringCaseIsLower(v.value, "yes");
      SameIgnoringCaseIsLower(v.value, "on");
      Lower(v.value) in Affirmative
  }

  /** `str_to_bool` of the CLI-driving server: no `None` branch, no "on". */
  function StrToBoolCli(s: string): (r: bool)
    ensures r <==> SameIgnoringCase(s, "true") || SameIgnoringCase(s, "1") || SameIgnoringCase(s, "yes")
  {
    SameIgnoringCaseIsLower(s, "true");
    SameIgnoringCaseIsLower(s, "1");
    SameIgnoringCaseIsLower(s, "yes");
    Lower(s) in AffirmativeCli
  }

  /** The CLI variant agrees with the FastAPI one except that it rejects "on". */
  lemma {:induction false} CliVariantDropsOn(s: string)
    ensures StrToBoolCli(s) <==> StrToBool(Some(s)) && !SameIgnoringCase(s, "on")
  {
    SameIgnoringCaseIsLower(s, "on");
  }

  /** Both variants ignore ASCII case. */
  lemma {:induction false} StrToBoolIgnoresCase(s: string)
    ensures StrToBool(Some(s)) == StrToBool(Some(Lower(s)))
    ensures StrToBoolCli(s) == StrToBoolCli(Lower(s))
  {
    LowerIdempotent(s);
  }

  /** Concrete readings of the spellings the browser sends. */
  lemma Examples()
    ensures StrToBool(Some("TRUE")) && StrToBool(Some("On")) && StrToBool(Some("yes"))
    ensures !StrToBool(Some("false")) && !StrToBool(Some("")) && !StrToBool(None)
  {
    assert SameIgnoringCase("TRUE", "true");
    assert SameIgnoringCase("On", "on");
    assert SameIgnoringCase("yes", "yes");
  }

  /** The spelling that splits the two variants. */
  lemma CliExamples()
    ensures StrToBoolCli("True") && !StrToBoolCli("on") && StrToBool(Some("on"))
  {
    assert SameIgnoringCase("True", "true");
    assert SameIgnoringCase("on", "on");
  }

  lemma SameIgnoringCaseIsLower(s: string, word: string)
    ensures SameIgnoringCase(s, word) <==> Lower(s) == word
  {
    if Lower(s) == word {
      assert forall i :: 0 <= i < |s| ==> LowerChar(s[i]) == word[i] by {
        forall i | 0 <= i < |s| ensures LowerChar(s[i]) == word[i] {
          assert Lower(s)[i] == LowerChar(s[i]);
        }
      }
    }
  }
}

=== FILE: gemini_env.dfy ===
/**
 * The `GEMINI_API_KEY` process variable around an in-process conversion:
 * set from the request's key for the call, then put back. `None` stands for
 * an unset variable.
 */
module GeminiEnv {
  import opened Values

  /**
   * The variable while the converter runs: it changes only to take the
   * request's key, and it does so whenever LLM mode is on and the key is
   * non-empty.
   */
  function DuringCall(original: Option<string>, useLlm: bool, key: Option<string>): (r: Option<string>)
    ensures r == original || (useLlm && Truthy(key) && r == key)
    ensures useLlm && Truthy(key) ==> r == key
  {
    if useLlm && Truthy(key) then key else original
  }

  /**
   * The `finally` block: restore the original value if it was non-empty,
   * otherwise delete the variable.
   */
  function Restore(original: Option<string>): (r: Option<string>)
    ensures r.None? || r == original
    ensures Truthy(r) <==> Truthy(original)
  {
    if Truthy(original) then original else None
  }

  /**
   * Restoration is exact except for one value: an original empty string
   * comes back as an unset variable.
   */
  lemma RestoreExactUnlessEmpty(original: Option<string>)
    ensures Restore(original) == original <==> original != Some("")
    ensures original == Some("") ==> Restore(original) == None
  {
  }
}

=== FILE: hf_space.dfy ===
/**
 * The HuggingFace Space server (`huggingface-space/app.py`): validate the
 * upload, insert a `processing` record, convert in-process right away,
 * settle the record, and answer polls on `/check/{id}`. The Gemini key is
 * kept in the options snapshot only for the conversion and deleted after.
 */
module HfSpace {
  import opened Values
  import opened Text
  import opened FormFlags
  import opened Jobs
  import GeminiEnv

  /** `MAX_PDF_FILE_SIZE`: 200 MiB. */
  const MaxPdfFileSize: nat := 200 * 1024 * 1024

  const UploadDir := "/tmp/marker_uploads"

  const OnlyPdf := "Only PDF files are supported"
  const KeyRequired := "Gemini API key is required when LLM Enhancement is enabled"
  const TooLarge := "PDF file size exceeds the maximum allowed size of 200 MB"
  const SaveFailed := "Failed to process file: "

  /** The multipart request: the file's name and byte count, and the form fields as sent. */
  datatype Form = Form(
    filename: string, size: nat, outputFormat: string, langs: Option<string>,
    paginate: string, formatLines: string, useLlm: string, disableImageExtraction: string,
    redoInlineMath: string, geminiApiKey: Option<string>)

  /** The `_gemini_key` entry of the options snapshot: present (possibly `None`), or deleted. */
  datatype KeySlot = Held(key: Option<string>) | Dropped

  /** The options snapshot stored in the record. */
  datatype Options = Options(
    outputFormat: string, langs: Option<string>, paginate: bool, formatLines: bool, useLlm: bool,
    disableImageExtraction: bool, redoInlineMath: bool, geminiKey: KeySlot)

  /** The server-specific part of a record: the saved upload and the options. */
  datatype Upload = Upload(filePath: string, options: Options)

  /** Process state: the job dict, the upload files that exist, and `GEMINI_API_KEY`. */
  datatype Server = Server(jobs: Registry<Upload>, uploads: set<string>, geminiEnv: Option<string>)

  function UploadPath(id: string): string
  {
    UploadDir + "/" + id + ".pdf"
  }

  function CheckUrl(baseUrl: string, id: string): string
  {
    baseUrl + "/check/" + id
  }

  /** The request passes every guard before the file is saved. */
  predicate Admissible(form: Form)
  {
    && IsPdfName(form.filename)
    && (StrToBool(Some(form.useLlm)) ==> Truthy(form.geminiApiKey))
    && form.size <= MaxPdfFileSize
  }

  /** The options snapshot: parsed booleans, and the key kept only when LLM mode is on. */
  function Snapshot(form: Form): (o: Options)
    ensures o.useLlm <==> StrToBool(Some(form.useLlm))
    ensures o.geminiKey.Held?
    ensures o.geminiKey.key.Some? ==> o.useLlm
    ensures o.useLlm ==> o.geminiKey.key == form.geminiApiKey
    ensures o.paginate <==> StrToBool(Some(form.paginate))
    ensures o.outputFormat == form.outputFormat && o.langs == form.langs
    ensures o.formatLines <==> StrToBool(Some(form.formatLines))
    ensures o.disableImageExtraction <==> StrToBool(Some(form.disableImageExtraction))
    ensures o.redoInlineMath <==> StrToBool(Some(form.redoInlineMath))
  {
    var useLlm := StrToBool(Some(form.useLlm));
    Options(
      form.outputFormat, form.langs, StrToBool(Some(form.paginate)), StrToBool(Some(form.formatLines)),
      useLlm, StrToBool(Some(form.disableImageExtraction)), StrToBool(Some(form.redoInlineMath)),
      Held(if useLlm then form.geminiApiKey else None))
  }

  /** `GEMINI_API_KEY` while `process_pdf` runs, read from the stored snapshot. */
  function ConverterEnv(env: Option<string>, o: Options): Option<string>
  {
    GeminiEnv.DuringCall(env, o.useLlm, if o.geminiKey.Held? then o.geminiKey.key else None)
  }

  /**
   * The converter sees the caller's key exactly when LLM mode is on, and the
   * process's own value otherwise.
   */
  lemma ConverterSeesKeyOnlyWithLlm(env: Option<string>, form: Form)
    requires Admissible(form)
    ensures StrToBool(Some(form.useLlm)) ==> ConverterEnv(env, Snapshot(form)) == form.geminiApiKey
    ensures !StrToBool(Some(form.useLlm)) ==> ConverterEnv(env, Snapshot(form)) == env
  {
  }

  /**
   * `process_pdf` plus the record update around it: settle the record, drop
   * the stored key, remove the upload only when conversion succeeded, and
   * restore `GEMINI_API_KEY`.
   */
  function Process(s: Server, id: string, conv: Outcome): (r: Server)
    requires id in s.jobs && s.jobs[id].status == Processing && WellFormed(s.jobs[id])
    ensures r.jobs.Keys == s.jobs.Keys
    ensures forall k :: k in s.jobs && k != id ==> r.jobs[k] == s.jobs[k]
    ensures WellFormed(r.jobs[id]) && r.jobs[id].status != Processing
    ensures r.jobs[id].extra == s.jobs[id].extra.(options := s.jobs[id].extra.options.(geminiKey := Dropped))
    ensures conv.Success? ==> r.jobs[id].status == Complete && r.jobs[id].markdown == Some(conv.text)
    ensures conv.Failure? ==> r.jobs[id].status == Error && r.jobs[id].error == Some(conv.message)
    ensures conv.Success? ==> r.uploads == s.uploads - {s.jobs[id].extra.filePath}
    ensures conv.Failure? ==> r.uploads == s.uploads
    ensures r.geminiEnv == GeminiEnv.Restore(s.geminiEnv)
  {
    var job := s.jobs[id];
    var settled := Settle(job, conv);
    var cleared := settled.(extra := settled.extra.(options := settled.extra.options.(geminiKey := Dropped)));
    Server(
      s.jobs[id := cleared],
      if conv.Success? then s.uploads - {job.extra.filePath} else s.uploads,
      GeminiEnv.Restore(s.geminiEnv))
  }

  /**
   * `POST /convert`. The guards run in source order (file name, key, size);
   * a failure to save the upload answers 500 and leaves no file. Otherwise
   * the record is inserted as `processing` and settled inline with the
   * converter's outcome `conv`.
   */
  function Submit(s: Server, form: Form, id: string, saveFault: Option<string>, conv: Outcome, baseUrl: string): (r: Submitted<Server>)
    requires id !in s.jobs
    ensures !IsPdfName(form.filename) ==> r == Submitted(Rejected(400, OnlyPdf), s)
    ensures (IsPdfName(form.filename) && StrToBool(Some(form.useLlm)) && !Truthy(form.geminiApiKey))
              ==> r == Submitted(Rejected(400, KeyRequired), s)
    ensures (IsPdfName(form.filename) && (StrToBool(Some(form.useLlm)) ==> Truthy(form.geminiApiKey))
              && form.size > MaxPdfFileSize) ==> r == Submitted(Rejected(413, TooLarge), s)
    ensures Admissible(form) && saveFault.Some? ==> r == Submitted(Rejected(500, SaveFailed + saveFault.value), s)
    ensures r.reply.Rejected? ==> r.state == s
    ensures r.reply.Accepted? <==> Admissible(form) && saveFault.None?
    ensures r.reply.Accepted? ==>
      && r.reply.requestId == id
      && r.reply.checkUrl == CheckUrl(baseUrl, id)
      && r.state.jobs.Keys == s.jobs.Keys + {id}
      && (forall k :: k in s.jobs ==> r.state.jobs[k] == s.jobs[k])
      && WellFormed(r.state.jobs[id]) && r.state.jobs[id].status != Processing
      && r.state.jobs[id].extra.options.geminiKey == Dropped
      && r.state.jobs[id].extra == Upload(UploadPath(id), Snapshot(form).(geminiKey := Dropped))
      && r.state.geminiEnv == GeminiEnv.Restore(s.geminiEnv)
    ensures r.reply.Accepted? && conv.Success? ==>
      && r.state.jobs[id].status == Complete && r.state.jobs[id].markdown == Some(conv.text)
      && r.state.uploads == s.uploads - {UploadPath(id)}
    ensures r.reply.Accepted? && conv.Failure? ==>
      && r.state.jobs[id].status == Error && r.state.jobs[id].error == Some(conv.message)
      && r.state.uploads == s.uploads + {UploadPath(id)}
  {
    if !IsPdfName(form.filename) then Submitted(Rejected(400, OnlyPdf), s)
    else
      var options := Snapshot(form);
      if options.useLlm && !Truthy(form.geminiApiKey) then Submitted(Rejected(400, KeyRequired), s)
      else if form.size > MaxPdfFileSize then Submitted(Rejected(413, TooLarge), s)
      else if saveFault.Some? then Submitted(Rejected(500, SaveFailed + saveFault.value), s)
      else
        var path := UploadPath(id);
        var inserted := Server(s.jobs[id := Open(Upload(path, options))], s.uploads + {path}, s.geminiEnv);
        Submitted(Accepted(id, CheckUrl(baseUrl, id)), Process(inserted, id, conv))
  }

  /** `GET /check/{id}`: the registry poll; files and environment are not touched. */
  function CheckStatus(s: Server, id: string): (r: Checked<Server>)
    ensures r.reply == NotFound <==> id !in s.jobs
    ensures id in s.jobs && s.jobs[id].status == Processing ==> r.reply == InFlight && r.state == s
    ensures id in s.jobs && s.jobs[id].status == Complete ==> r.reply == Finished(s.jobs[id].markdown)
    ensures id in s.jobs && s.jobs[id].status == Error ==> r.reply == Errored(s.jobs[id].error)
    ensures r.reply == InFlight ==> r.state == s
    ensures IsDelivery(r.reply) ==> r.state.jobs == s.jobs - {id}
    ensures r.state.uploads == s.uploads && r.state.geminiEnv == s.geminiEnv
  {
    var p := Poll(s.jobs, id);
    Checked(p.reply, s.(jobs := p.jobs))
  }

  /**
   * What holds of every reachable state: records are well formed, none is
   * left `processing` (conversion runs inline), and none still holds a key.
   */
  predicate Inv(s: Server)
  {
    && AllWellFormed(s.jobs)
    && AllTerminal(s.jobs)
    && forall id :: id in s.jobs ==> s.jobs[id].extra.options.geminiKey == Dropped
  }

  lemma SubmitPreservesInv(s: Server, form: Form, id: string, saveFault: Option<string>, conv: Outcome, baseUrl: string)
    requires Inv(s) && id !in s.jobs
    ensures Inv(Submit(s, form, id, saveFault, conv, baseUrl).state)
  {
  }

  lemma CheckStatusPreservesInv(s: Server, id: string)
    requires Inv(s)
    ensures Inv(CheckStatus(s, id).state)
    ensures CheckStatus(s, id).reply != InFlight
  {
    PollPreserves(s.jobs, id);
  }

  /**
   * A successful round: the submission is accepted, the first poll returns
   * the text and deletes the record, the second poll answers 404, and the
   * registry is back to what it was.
   */
  lemma {:induction false} SubmitPollPoll(s: Server, form: Form, id: string, text: string, baseUrl: string)
    requires id !in s.jobs && Admissible(form)
    ensures var sub := Submit(s, form, id, None, Success(text), baseUrl);
      var first := CheckStatus(sub.state, id);
      var second := CheckStatus(first.state, id);
      && sub.reply == Accepted(id, CheckUrl(baseUrl, id))
      && first.reply == Finished(Some(text))
      && second.reply == NotFound
      && second.state.jobs == s.jobs
  {
    var sub := Submit(s, form, id, None, Success(text), baseUrl);
    var first := CheckStatus(sub.state, id);
    assert first.state.jobs.Keys == s.jobs.Keys;
  }
}

=== FILE: jobs.dfy ===
/**
 * The in-memory job registry every server keeps: a dict from request id to
 * a record with a status, a markdown slot and an error slot, plus
 * server-specific data (`X`: file paths, the options snapshot, the command
 * line). The conversion runner settles a record exactly once; `check_status`
 * hands a terminal record out once and deletes it.
 */
module Jobs {
  import opened Values

  datatype Status = Processing | Complete | Error

  /** One job record; `extra` holds what differs between the servers. */
  datatype Job<X> = Job(status: Status, markdown: Option<string>, error: Option<string>, extra: X)

  type Registry<X> = map<string, Job<X>>

  /** What the conversion produced: the text, or the message stored in `error`. */
  datatype Outcome = Success(text: string) | Failure(message: string)

  /** What `check_status` answers: 404, status only, or status with its payload. */
  datatype Reply = NotFound | InFlight | Finished(markdown: Option<string>) | Errored(error: Option<string>)

  /** What a submission answers: an HTTP error, or the id and the URL to poll. */
  datatype SubmitReply = Rejected(code: nat, detail: string) | Accepted(requestId: string, checkUrl: string)

  /** A submission's reply together with the server state after it. */
  datatype Submitted<S> = Submitted(reply: SubmitReply, state: S)

  /** A poll's reply together with the server state after it. */
  datatype Checked<S> = Checked(reply: Reply, state: S)

  /** A poll's reply together with the registry after it. */
  datatype Polled<X> = Polled(reply: Reply, jobs: Registry<X>)

  /** Exactly one of markdown/error is set on a terminal record, neither while processing. */
  predicate WellFormed<X>(j: Job<X>)
  {
    match j.status
    case Processing => j.markdown.None? && j.error.None?
    case Complete => j.markdown.Some? && j.error.None?
    case Error => j.markdown.None? && j.error.Some?
  }

  predicate AllWellFormed<X>(jobs: Registry<X>)
  {
    forall id :: id in jobs ==> WellFormed(jobs[id])
  }

  predicate AllTerminal<X>(jobs: Registry<X>)
  {
    forall id :: id in jobs ==> jobs[id].status != Processing
  }

  predicate IsDelivery(r: Reply)
  {
    r.Finished? || r.Errored?
  }

  /** The record a submission inserts: `processing`, markdown and error both `None`. */
  function Open<X>(extra: X): (j: Job<X>)
    ensures WellFormed(j) && j.status == Processing
    ensures j.extra == extra
  {
    Job(Processing, None, None, extra)
  }

  /**
   * The runner's single write: `complete` with the markdown, or `error` with
   * the message. The rest of the record is left as it was.
   */
  function Settle<X>(j: Job<X>, o: Outcome): (r: Job<X>)
    requires WellFormed(j) && j.status == Processing
    ensures WellFormed(r) && r.status != Processing
    ensures r.extra == j.extra
    ensures r.status == Complete <==> o.Success?
    ensures o.Success? ==> r.markdown == Some(o.text)
    ensures o.Failure? ==> r.error == Some(o.message)
  {
    match o
    case Success(t) => j.(status := Complete, markdown := Some(t))
    case Failure(m) => j.(status := Error, error := Some(m))
  }

  /**
   * `check_status`: 404 for an unknown id, the status alone while processing,
   * and on a terminal record the payload, after which the record is deleted.
   */
  function Poll<X>(jobs: Registry<X>, id: string): (r: Polled<X>)
    ensures r.reply == NotFound <==> id !in jobs
    ensures r.reply == InFlight <==> id in jobs && jobs[id].status == Processing
    ensures r.reply.Finished? <==> id in jobs && jobs[id].status == Complete
    ensures r.reply.Errored? <==> id in jobs && jobs[id].status == Error
    ensures r.reply.Finished? ==> r.reply.markdown == jobs[id].markdown
    ensures r.reply.Errored? ==> r.reply.error == jobs[id].error
    // the record goes away exactly when its payload is handed out
    ensures id in r.jobs <==> id in jobs && !IsDelivery(r.reply)
    // no other record is added, removed or edited
    ensures forall k :: k != id ==> (k in r.jobs <==> k in jobs)
    ensures forall k :: k in r.jobs ==> k in jobs && r.jobs[k] == jobs[k]
  {
    if id !in jobs then Polled(NotFound, jobs)
    else
      var job := jobs[id];
      match job.status
      case Processing => Polled(InFlight, jobs)
      case Complete => Polled(Finished(job.markdown), jobs - {id})
      case Error => Polled(Errored(job.error), jobs - {id})
  }

  /** Polling never breaks well-formedness or terminality of the records that remain. */
  lemma PollPreserves<X>(jobs: Registry<X>, id: string)
    ensures AllWellFormed(jobs) ==> AllWellFormed(Poll(jobs, id).jobs)
    ensures AllTerminal(jobs) ==> AllTerminal(Poll(jobs, id).jobs)
  {
  }

  /** A registry in which nothing is processing never answers "processing". */
  lemma AllTerminalNeverInFlight<X>(jobs: Registry<X>, id: string)
    requires AllTerminal(jobs)
    ensures Poll(jobs, id).reply != InFlight
  {
  }

  /**
   * What the runner saved is what the first poll returns: a record opened
   * and settled with outcome `o` is answered with `o`'s text or message.
   */
  lemma {:induction false} SettleThenPoll<X>(jobs: Registry<X>, id: string, extra: X, o: Outcome)
    ensures var p := Poll(jobs[id := Settle(Open(extra), o)], id);
      && (o.Success? ==> p.reply == Finished(Some(o.text)))
      && (o.Failure? ==> p.reply == Errored(Some(o.message)))
      && p.jobs == jobs - {id}
  {
    var j := Settle(Open(extra), o);
    var p := Poll(jobs[id := j], id);
    assert p.jobs.Keys == (jobs - {id}).Keys;
  }

  /** A sequence of polls, as a caller issues them one after another: one reply per poll. */
  function PollAll<X>(jobs: Registry<X>, ids: seq<string>): (rs: seq<Reply>)
    ensures |rs| == |ids|
    decreases |ids|
  {
    if ids == [] then []
    else
      var p := Poll(jobs, ids[0]);
      [p.reply] + PollAll(p.jobs, ids[1..])
  }

  /**
   * Polling never creates a record: every answer other than 404 in a poll
   * sequence is about an id that was registered before the polls began.
   */
  lemma {:induction false} PollsNeverCreate<X>(jobs: Registry<X>, ids: seq<string>, k: nat)
    requires k < |ids| && PollAll(jobs, ids)[k] != NotFound
    ensures ids[k] in jobs
    decreases |ids|
  {
    var p := Poll(jobs, ids[0]);
    if k > 0 {
      assert ids[1..][k - 1] == ids[k];
      PollsNeverCreate(p.jobs, ids[1..], k - 1);
    }
  }

  /** An id that is gone stays gone: polling alone never brings a record back. */
  lemma {:induction false} GoneStaysGone<X>(jobs: Registry<X>, ids: seq<string>, k: nat)
    requires k < |ids| && ids[k] !in jobs
    ensures PollAll(jobs, ids)[k] == NotFound
    decreases |ids|
  {
    var p := Poll(jobs, ids[0]);
    if k > 0 {
      assert ids[1..][k - 1] == ids[k];
      GoneStaysGone(p.jobs, ids[1..], k - 1);
    }
  }

  /**
   * At-most-once delivery: once a poll for an id has returned a payload,
   * every later poll for that id answers 404.
   */
  lemma {:induction false} AtMostOnceDelivery<X>(jobs: Registry<X>, ids: seq<string>, i: nat, j: nat)
    requires i < j < |ids| && ids[i] == ids[j]
    requires IsDelivery(PollAll(jobs, ids)[i])
    ensures PollAll(jobs, ids)[j] == NotFound
    decreases |ids|
  {
    var p := Poll(jobs, ids[0]);
    if i == 0 {
      assert ids[1..][j - 1] == ids[j];
      GoneStaysGone(p.jobs, ids[1..], j - 1);
    } else {
      assert ids[1..][i - 1] == ids[i] && ids[1..][j - 1] == ids[j];
      AtMostOnceDelivery(p.jobs, ids[1..], i - 1, j - 1);
    }
  }

  /**
   * ...and at least once: the first poll for an id holding a terminal record
   * returns that record's payload, whatever other ids were polled before.
   */
  lemma {:induction false} FirstPollDelivers<X>(jobs: Registry<X>, ids: seq<string>, k: nat)
    requires k < |ids| && ids[k] in jobs && jobs[ids[k]].status != Processing
    requires forall m :: 0 <= m < k ==> ids[m] != ids[k]
    ensures var job := jobs[ids[k]];
      PollAll(jobs, ids)[k] == (if job.status == Complete then Finished(job.markdown) else Errored(job.error))
    decreases |ids|
  {
    var p := Poll(jobs, ids[0]);
    if k > 0 {
      assert ids[0] != ids[k];
      assert ids[1..][k - 1] == ids[k];
      FirstPollDelivers(p.jobs, ids[1..], k - 1);
    }
  }

  /**
   * The reply never depends on the server-specific part of the record, so
   * nothing kept there (paths, options, an API key) reaches the caller.
   */
  lemma PollIgnoresExtra<X, Y>(a: Registry<X>, b: Registry<Y>, id: string)
    requires id in a <==> id in b
    requires id in a ==> a[id].status == b[id].status && a[id].markdown == b[id].markdown && a[id].error == b[id].error
    ensures Poll(a, id).reply == Poll(b, id).reply
  {
  }
}

=== FILE: local_server.dfy ===
/**
 * The local FastAPI server (`public/scripts/marker_server.py`): the same
 * job lifecycle as the HuggingFace copy, without the key-required guard;
 * the API key is stored verbatim in the options snapshot and never removed.
 */
module LocalServer {
  import opened Values
  import opened Text
  import opened FormFlags
  import opened Jobs
  import GeminiEnv

  /** `MAX_PDF_FILE_SIZE`: 200 MiB. */
  const MaxPdfFileSize: nat := 200 * 1024 * 1024

  const UploadDir := "/tmp/marker_uploads"
  const StatusUrlPrefix := "http://localhost:8000/status/"

  const OnlyPdf := "Only PDF files are supported"
  const TooLarge := "PDF file size exceeds the maximum allowed size of 200 MB"
  const SaveFailed := "Failed to process file: "

  /** The multipart request: the file's name and byte count, and the form fields as sent. */
  datatype Form = Form(
    filename: string, size: nat, outputFormat: string, langs: Option<string>,
    paginate: string, formatLines: string, useLlm: string, disableImageExtraction: string,
    redoInlineMath: string, apiKey: Option<string>)

  /** The options snapshot stored in the record, `api_key` included. */
  datatype Options = Options(
    outputFormat: string, langs: Option<string>, paginate: bool, formatLines: bool, useLlm: bool,
    disableImageExtraction: bool, redoInlineMath: bool, apiKey: Option<string>)

  datatype Upload = Upload(filePath: string, options: Options)

  /** Process state: the job dict, the upload files that exist, and `GEMINI_API_KEY`. */
  datatype Server = Server(jobs: Registry<Upload>, uploads: set<string>, geminiEnv: Option<string>)

  function UploadPath(id: string): string
  {
    UploadDir + "/" + id + ".pdf"
  }

  /** The returned check URL; the request id is everything after the fixed prefix. */
  function CheckUrl(id: string): (url: string)
    ensures StatusUrlPrefix <= url && url[|StatusUrlPrefix|..] == id
  {
    StatusUrlPrefix + id
  }

  predicate Admissible(form: Form)
  {
    IsPdfName(form.filename) && form.size <= MaxPdfFileSize
  }

  /** The options snapshot: each flag parsed by `str_to_bool`, text fields and the key exactly as sent. */
  function Snapshot(form: Form): (o: Options)
    ensures o.apiKey == form.apiKey
    ensures o.useLlm <==> StrToBool(Some(form.useLlm))
    ensures o.paginate <==> StrToBool(Some(form.paginate))
    ensures o.outputFormat == form.outputFormat && o.langs == form.langs
    ensures o.formatLines <==> StrToBool(Some(form.formatLines))
    ensures o.disableImageExtraction <==> StrToBool(Some(form.disableImageExtraction))
    ensures o.redoInlineMath <==> StrToBool(Some(form.redoInlineMath))
  {
    Options(
      form.outputFormat, form.langs, StrToBool(Some(form.paginate)), StrToBool(Some(form.formatLines)),
      StrToBool(Some(form.useLlm)), StrToBool(Some(form.disableImageExtraction)),
      StrToBool(Some(form.redoInlineMath)), form.apiKey)
  }

  /**
   * The conversion block: settle the record, remove the upload only when
   * conversion succeeded, and restore `GEMINI_API_KEY`. The stored options
   * are left as they are.
   */
  function Process(s: Server, id: string, conv: Outcome): (r: Server)
    requires id in s.jobs && s.jobs[id].status == Processing && WellFormed(s.jobs[id])
    ensures r.jobs.Keys == s.jobs.Keys
    ensures forall k :: k in s.jobs && k != id ==> r.jobs[k] == s.jobs[k]
    ensures WellFormed(r.jobs[id]) && r.jobs[id].status != Processing
    ensures r.jobs[id].extra == s.jobs[id].extra
    ensures conv.Success? ==> r.jobs[id].status == Complete && r.jobs[id].markdown == Some(conv.text)
    ensures conv.Failure? ==> r.jobs[id].status == Error && r.jobs[id].error == Some(conv.message)
    ensures conv.Success? ==> r.uploads == s.uploads - {s.jobs[id].extra.filePath}
    ensures conv.Failure? ==> r.uploads == s.uploads
    ensures r.geminiEnv == GeminiEnv.Restore(s.geminiEnv)
  {
    var job := s.jobs[id];
    Server(
      s.jobs[id := Settle(job, conv)],
      if conv.Success? then s.uploads - {job.extra.filePath} else s.uploads,
      GeminiEnv.Restore(s.geminiEnv))
  }

  /**
   * `POST /marker`: file-name guard, size guard, save (500 on failure,
   * leaving no file), insert a `processing` record, settle it inline.
   */
  function Submit(s: Server, form: Form, id: string, saveFault: Option<string>, conv: Outcome): (r: Submitted<Server>)
    requires id !in s.jobs
    ensures !IsPdfName(form.filename) ==> r == Submitted(Rejected(400, OnlyPdf), s)
    ensures (IsPdfName(form.filename) && form.size > MaxPdfFileSize) ==> r == Submitted(Rejected(413, TooLarge), s)
    ensures Admissible(form) && saveFault.Some? ==> r == Submitted(Rejected(500, SaveFailed + saveFault.value), s)
    ensures r.reply.Rejected? ==> r.state == s
    ensures r.reply.Accepted? <==> Admissible(form) && saveFault.None?
    ensures r.reply.Accepted? ==>
      && r.reply.requestId == id
      && r.reply.checkUrl == CheckUrl(id)
      && r.state.jobs.Keys == s.jobs.Keys + {id}
      && (forall k :: k in s.jobs ==> r.state.jobs[k] == s.jobs[k])
      && WellFormed(r.state.jobs[id]) && r.state.jobs[id].status != Processing
      && r.state.jobs[id].extra.options.apiKey == form.apiKey
      && r.state.jobs[id].extra == Upload(UploadPath(id), Snapshot(form))
      && r.state.geminiEnv == GeminiEnv.Restore(s.geminiEnv)
    ensures r.reply.Accepted? && conv.Success? ==>
      && r.state.jobs[id].status == Complete && r.state.jobs[id].markdown == Some(conv.text)
      && r.state.uploads == s.uploads - {UploadPath(id)}
    ensures r.reply.Accepted? && conv.Failure? ==>
      && r.state.jobs[id].status == Error && r.state.jobs[id].error == Some(conv.message)
      && r.state.uploads == s.uploads + {UploadPath(id)}
  {
    if !IsPdfName(form.filename) then Submitted(Rejected(400, OnlyPdf), s)
    else if form.size > MaxPdfFileSize then Submitted(Rejected(413, TooLarge), s)
    else if saveFault.Some? then Submitted(Rejected(500, SaveFailed + saveFault.value), s)
    else
      var path := UploadPath(id);
      var inserted := Server(s.jobs[id := Open(Upload(path, Snapshot(form)))], s.uploads + {path}, s.geminiEnv);
      Submitted(Accepted(id, CheckUrl(id)), Process(inserted, id, conv))
  }

  /** `GEMINI_API_KEY` while the converter runs: set only for LLM mode with a non-empty key. */
  lemma ConverterEnvFollowsForm(env: Option<string>, form: Form)
    ensures var o := Snapshot(form);
      GeminiEnv.DuringCall(env, o.useLlm, o.apiKey) == (if o.useLlm && Truthy(form.apiKey) then form.apiKey else env)
  {
  }

  /** `GET /status/{id}`: the registry poll; files and environment are not touched. */
  function CheckStatus(s: Server, id: string): (r: Checked<Server>)
    ensures r.reply == NotFound <==> id !in s.jobs
    ensures id in s.jobs && s.jobs[id].status == Processing ==> r.reply == InFlight && r.state == s
    ensures id in s.jobs && s.jobs[id].status == Complete ==> r.reply == Finished(s.jobs[id].markdown)
    ensures id in s.jobs && s.jobs[id].status == Error ==> r.reply == Errored(s.jobs[id].error)
    ensures r.reply == InFlight ==> r.state == s
    ensures IsDelivery(r.reply) ==> r.state.jobs == s.jobs - {id}
    ensures r.state.uploads == s.uploads && r.state.geminiEnv == s.geminiEnv
  {
    var p := Poll(s.jobs, id);
    Checked(p.reply, s.(jobs := p.jobs))
  }

  /**
   * The key sent with a request stays in its record, success or failure,
   * until the record is polled away; the poll's reply never carries it.
   */
  lemma {:induction false} ApiKeyStaysUntilPolled(s: Server, form: Form, id: string, conv: Outcome, other: Option<string>)
    requires id !in s.jobs && Admissible(form)
    ensures var sub := Submit(s, form, id, None, conv);
      && sub.state.jobs[id].extra.options.apiKey == form.apiKey
      && CheckStatus(sub.state, id).reply == CheckStatus(Submit(s, form.(apiKey := other), id, None, conv).state, id).reply
      && id !in CheckStatus(sub.state, id).state.jobs
  {
    var a := Submit(s, form, id, None, conv).state;
    var b := Submit(s, form.(apiKey := other), id, None, conv).state;
    PollIgnoresExtra(a.jobs, b.jobs, id);
  }
}

=== FILE: marker_cli.dfy ===
/**
 * The `marker_single` command line both subprocess-driving copies build,
 * an inverse that reads the options back out of it, and the outcome of
 * running it.
 */
module MarkerCli {
  import opened Values

  /** The optional flags: `--langs <langs>`, `--force_ocr`, `--paginate`, `--disable_image_extraction`. */
  datatype Flags = Flags(langs: Option<string>, forceOcr: bool, paginate: bool, disableImages: bool)

  /** Everything the command line carries. */
  datatype Invocation = Invocation(pdf: string, outDir: string, format: string, flags: Flags)

  /** What running the command gave: an exit with stderr and the `*.md` files' contents in glob order, a timeout, or another exception. */
  datatype Run = Exited(code: int, stderr: string, markdownFiles: seq<string>) | TimedOut | Raised(message: string)

  /** The flags as the command line can show them: `if langs:` drops `None` and `""` alike. */
  function Normal(f: Flags): Flags
  {
    f.(langs := if Truthy(f.langs) then f.langs else None)
  }

  function Base(inv: Invocation): seq<string>
  {
    ["marker_single", inv.pdf, inv.outDir, "--output_format", inv.format]
  }

  /** A switch: the word when on, nothing when off. */
  function Switch(on: bool, word: string): seq<string>
  {
    if on then [word] else []
  }

  function LangsArgs(langs: Option<string>): seq<string>
  {
    if Truthy(langs) then ["--langs", langs.value] else []
  }

  function FlagArgs(f: Flags): seq<string>
  {
    LangsArgs(f.langs) + Switch(f.forceOcr, "--force_ocr") + Switch(f.paginate, "--paginate")
    + Switch(f.disableImages, "--disable_image_extraction")
  }

  /**
   * The argument vector: the fixed five-word base, then the optional flags
   * in the order langs, force_ocr, paginate, disable_image_extraction.
   */
  function Argv(inv: Invocation): (cmd: seq<string>)
    ensures |cmd| == 5 + (if Truthy(inv.flags.langs) then 2 else 0) + (if inv.flags.forceOcr then 1 else 0)
                       + (if inv.flags.paginate then 1 else 0) + (if inv.flags.disableImages then 1 else 0)
    ensures cmd[..5] == ["marker_single", inv.pdf, inv.outDir, "--output_format", inv.format]
    ensures Truthy(inv.flags.langs) ==> cmd[5] == "--langs" && cmd[6] == inv.flags.langs.value
    ensures inv.flags.forceOcr ==> cmd[5 + (if Truthy(inv.flags.langs) then 2 else 0)] == "--force_ocr"
    ensures inv.flags.paginate ==> cmd[|cmd| - 1 - (if inv.flags.disableImages then 1 else 0)] == "--paginate"
    ensures inv.flags.disableImages ==> cmd[|cmd| - 1] == "--disable_image_extraction"
  {
    Base(inv) + FlagArgs(inv.flags)
  }

  /** Reads optional flags back; `None` for a word that is not one of them. */
  function ParseFlags(args: seq<string>): Option<Flags>
    decreases |args|
  {
    if args == [] then Some(Flags(None, false, false, false))
    else if args[0] == "--langs" && |args| >= 2 then
      match ParseFlags(args[2..])
      case None => None
      case Some(f) => Some(f.(langs := Some(args[1])))
    else if args[0] == "--force_ocr" then
      match ParseFlags(args[1..])
      case None => None
      case Some(f) => Some(f.(forceOcr := true))
    else if args[0] == "--paginate" then
      match ParseFlags(args[1..])
      case None => None
      case Some(f) => Some(f.(paginate := true))
    else if args[0] == "--disable_image_extraction" then
      match ParseFlags(args[1..])
      case None => None
      case Some(f) => Some(f.(disableImages := true))
    else None
  }

  /** Reads a whole `marker_single` command line back into an invocation. */
  function Parse(cmd: seq<string>): Option<Invocation>
  {
    if |cmd| >= 5 && cmd[0] == "marker_single" && cmd[3] == "--output_format" then
      match ParseFlags(cmd[5..])
      case None => None
      case Some(f) => Some(Invocation(cmd[1], cmd[2], cmd[4], f))
    else None
  }

  lemma ParseDisable(on: bool)
    ensures ParseFlags(Switch(on, "--disable_image_extraction")) == Some(Flags(None, false, false, on))
  {
    if on {
      assert Switch(on, "--disable_image_extraction")[1..] == [];
    }
  }

  lemma ParsePaginate(on: bool, rest: seq<string>, f: Flags)
    requires ParseFlags(rest) == Some(f) && !f.paginate
    ensures ParseFlags(Switch(on, "--paginate") + rest) == Some(f.(paginate := on))
  {
    var args := Switch(on, "--paginate") + rest;
    if on {
      assert args[0] == "--paginate" && args[1..] == rest;
    } else {
      assert args == rest;
    }
  }

  lemma ParseForceOcr(on: bool, rest: seq<string>, f: Flags)
    requires ParseFlags(rest) == Some(f) && !f.forceOcr
    ensures ParseFlags(Switch(on, "--force_ocr") + rest) == Some(f.(forceOcr := on))
  {
    var args := Switch(on, "--force_ocr") + rest;
    if on {
      assert args[0] == "--force_ocr" && args[1..] == rest;
    } else {
      assert args == rest;
    }
  }

  lemma ParseLangs(langs: Option<string>, rest: seq<string>, f: Flags)
    requires ParseFlags(rest) == Some(f) && f.langs.None?
    ensures ParseFlags(LangsArgs(langs) + rest) == Some(f.(langs := if Truthy(langs) then langs else None))
  {
    var args := LangsArgs(langs) + rest;
    if Truthy(langs) {
      assert args[0] == "--langs" && args[1] == langs.value && args[2..] == rest;
    } else {
      assert args == rest;
    }
  }

  /** The flag words read back, one layer at a time from the end. */
  lemma {:induction false} ParseFlagArgs(f: Flags)
    ensures ParseFlags(FlagArgs(f)) == Some(Normal(f))
  {
    var l := LangsArgs(f.langs);
    var o := Switch(f.forceOcr, "--force_ocr");
    var p := Switch(f.paginate, "--paginate");
    var d := Switch(f.disableImages, "--disable_image_extraction");
    ParseDisable(f.disableImages);
    ParsePaginate(f.paginate, d, Flags(None, false, false, f.disableImages));
    ParseForceOcr(f.forceOcr, p + d, Flags(None, false, f.paginate, f.disableImages));
    ParseLangs(f.langs, o + (p + d), Flags(None, f.forceOcr, f.paginate, f.disableImages));
    assert FlagArgs(f) == l + (o + (p + d));
  }

  /**
   * The command line loses nothing the source puts in it: parsing it back
   * yields the invocation, with an empty `langs` read as absent.
   */
  lemma {:induction false} ParseInvertsArgv(inv: Invocation)
    ensures Parse(Argv(inv)) == Some(inv.(flags := Normal(inv.flags)))
  {
    var cmd := Argv(inv);
    assert cmd[5..] == FlagArgs(inv.flags);
    ParseFlagArgs(inv.flags);
  }
}

=== FILE: modal_fn.dfy ===
/**
 * The Modal GPU function (`modal-deployment/modal_app.py`, `convert_pdf`):
 * one call writes the PDF into a fresh per-request directory, runs
 * `marker_single`, maps the outcome to a result dict, and removes the
 * directory on every return path. There is no job registry here; the
 * result dict is returned directly.
 */
module ModalFn {
  import opened Values
  import opened Paths
  import opened MarkerCli

  const TempRoot := "/tmp/marker"

  const NoMarkdown := "No markdown file generated"
  const MarkerFailed := "Marker conversion failed: "
  const TimedOutMessage := "Conversion timed out (>9 minutes)"
  const Unexpected := "Unexpected error: "

  /** `metadata`: `{}` when no meta file was written, else the file's JSON (not parsed here). */
  datatype Metadata = EmptyMetadata | MetaJson(text: string)

  /** The returned dict; a key that is absent from it is `None` here. */
  datatype ResultDict = ResultDict(
    success: bool, requestId: string, error: Option<string>,
    markdown: Option<string>, filename: Option<string>, metadata: Option<Metadata>)

  /** A call's result dict together with the paths that exist after it. */
  datatype Call = Call(result: ResultDict, fs: set<string>)

  function TempDir(id: string): string
  {
    TempRoot + "/" + id
  }

  function OutputDir(id: string): string
  {
    TempDir(id) + "/output"
  }

  /**
   * `temp_dir / filename`, as written: an absolute name is taken as it is,
   * any other name lands inside the temp directory, and a slash-free name
   * gives the same path as the corrected join.
   */
  function InputFileAsWritten(id: string, filename: string): (p: string)
    ensures filename != "" && filename[0] == '/' ==> p == filename
    ensures filename == "" || filename[0] != '/' ==> Inside(p, TempDir(id))
    ensures '/' !in filename ==> p == InputFile(id, filename)
  {
    NameOfSlashFree(filename);
    JoinPath(TempDir(id), filename)
  }

  /** The input path with only the last component of the caller's file name kept. */
  function InputFile(id: string, filename: string): (p: string)
    ensures Inside(p, TempDir(id))
    ensures Name(filename) != "" ==> Name(p) == Name(filename)
  {
    var n := Name(filename);
    JoinComponentStaysInside(TempDir(id), n);
    if n == "" then JoinPath(TempDir(id), n)
    else
      NameAfterSlash(TempDir(id), n);
      JoinPath(TempDir(id), n)
  }

  /**
   * The command line: base words, then `--langs` when langs is non-empty,
   * `--force_ocr`, `--paginate`, and `--disable_image_extraction` exactly
   * when images are not to be extracted.
   */
  function Command(input: string, outDir: string, outputFormat: string, langs: Option<string>,
                   forceOcr: bool, paginate: bool, extractImages: bool): (cmd: seq<string>)
    ensures Parse(cmd) == Some(Invocation(input, outDir, outputFormat,
      Flags(if Truthy(langs) then langs else None, forceOcr, paginate, !extractImages)))
    ensures !extractImages <==> cmd[|cmd| - 1] == "--disable_image_extraction" && |cmd| > 5 + (if Truthy(langs) then 2 else 0)
    ensures |cmd| >= 5 && cmd[..5] == ["marker_single", input, outDir, "--output_format", outputFormat]
    ensures cmd[5..] == LangsArgs(langs) + Switch(forceOcr, "--force_ocr") + Switch(paginate, "--paginate")
                        + Switch(!extractImages, "--disable_image_extraction")
  {
    var inv := Invocation(input, outDir, outputFormat, Flags(langs, forceOcr, paginate, !extractImages));
    ParseInvertsArgv(inv);
    assert Argv(inv)[5..] == FlagArgs(inv.flags);
    Argv(inv)
  }

  /** `str.rfind('.')`: the index of the last dot, or -1. */
  function LastDot(s: string): (i: int)
    ensures -1 <= i < |s|
    ensures i >= 0 ==> s[i] == '.'
    ensures forall j :: i < j < |s| ==> s[j] != '.'
  {
    if s == [] then -1
    else if s[|s| - 1] == '.' then |s| - 1
    else LastDot(s[..|s| - 1])
  }

  /** `PurePath.stem` of a last component: drop the final suffix unless the name starts or ends with the dot. */
  function Stem(name: string): (r: string)
    ensures |r| <= |name| && r == name[..|r|]
    ensures |r| < |name| ==>
      && 0 < |r| < |name| - 1
      && name[|r|] == '.'
      && forall j :: |r| < j < |name| ==> name[j] != '.'
    ensures |r| == |name| ==>
      || (|name| > 0 && name[|name| - 1] == '.')
      || forall j :: 0 < j < |name| - 1 ==> name[j] != '.'
  {
    var i := LastDot(name);
    if 0 < i < |name| - 1 then name[..i] else name
  }

  /** The stem of `base.ext` is `base`, for a non-empty base and a non-empty, dot-free extension. */
  lemma {:induction false} StemDropsExtension(base: string, ext: string)
    requires base != "" && ext != "" && '.' !in ext
    ensures Stem(base + "." + ext) == base
  {
    var name := base + "." + ext;
    assert name[|base|] == '.';
    var i := LastDot(name);
    forall j | |base| < j < |name| ensures name[j] != '.' {
      assert name[j] == ext[j - |base| - 1];
      assert ext[j - |base| - 1] in ext;
    }
    assert name[..|base|] == base;
  }

  function Failed(id: string, message: string): (r: ResultDict)
    ensures !r.success && r.requestId == id && r.error == Some(message)
    ensures r.markdown.None? && r.filename.None? && r.metadata.None?
  {
    ResultDict(false, id, Some(message), None, None, None)
  }

  /**
   * The dict `convert_pdf` returns for outcome `run` on the saved `input`:
   * non-zero exit, no markdown file, timeout and other exceptions each give
   * `success: False` with a fixed message; otherwise the first markdown
   * file's text, `<stem>.md`, and the metadata (`{}` when `metaFile`, the
   * content of `<stem>_meta.json`, is absent).
   */
  function Result(id: string, input: string, run: Run, metaFile: Option<string>): (r: ResultDict)
    ensures r.requestId == id
    ensures r.error.Some? <==> !r.success
    ensures r.success <==> run.Exited? && run.code == 0 && |run.markdownFiles| > 0
    ensures r.success ==>
      && r.markdown == Some(run.markdownFiles[0])
      && r.filename == Some(Stem(Name(input)) + ".md")
      && r.metadata == Some(if metaFile.None? then EmptyMetadata else MetaJson(metaFile.value))
    ensures !r.success ==> r.markdown.None? && r.filename.None? && r.metadata.None?
    ensures run.Exited? && run.code != 0 ==> r.error == Some(MarkerFailed + run.stderr)
    ensures run.Exited? && run.code == 0 && |run.markdownFiles| == 0 ==> r.error == Some(NoMarkdown)
    ensures run.TimedOut? ==> r.error == Some(TimedOutMessage)
    ensures run.Raised? ==> r.error == Some(Unexpected + run.message)
  {
    match run
    case Exited(code, stderr, files) =>
      if code != 0 then Failed(id, MarkerFailed + stderr)
      else if files == [] then Failed(id, NoMarkdown)
      else ResultDict(true, id, None, Some(files[0]), Some(Stem(Name(input)) + ".md"),
                      Some(if metaFile.None? then EmptyMetadata else MetaJson(metaFile.value)))
    case TimedOut => Failed(id, TimedOutMessage)
    case Raised(m) => Failed(id, Unexpected + m)
  }

  /**
   * `convert_pdf` with the input saved at `input`. The request's temp
   * directory and its output directory are created, then the input is
   * written; `writeFault` is the error `write_bytes` raises, if any, in
   * which case nothing is written and the dict carries that error. Else
   * `run` is the outcome of running `Command` on the input. On every
   * return path the temp directory is removed; a written input outside it
   * stays behind.
   */
  function Convert(fs: set<string>, input: string, id: string, writeFault: Option<string>, run: Run, metaFile: Option<string>): (r: Call)
    requires forall p :: p in fs ==> !Inside(p, TempDir(id))
    ensures writeFault.Some? ==> r.result == Failed(id, Unexpected + writeFault.value) && r.fs == fs
    ensures writeFault.None? ==> r.result == Result(id, input, run, metaFile)
    ensures writeFault.None? && Inside(input, TempDir(id)) ==> r.fs == fs
    ensures writeFault.None? && !Inside(input, TempDir(id)) ==> r.fs == fs + {input}
  {
    var temp := TempDir(id);
    var out := OutputDir(id);
    OutputDirInsideTemp(id);
    if writeFault.Some? then
      CleanupRestores(fs, temp, out, out);
      Call(Failed(id, Unexpected + writeFault.value), RemoveTree(fs + {temp, out}, temp))
    else if Inside(input, temp) then
      CleanupRestores(fs, temp, out, input);
      Call(Result(id, input, run, metaFile), RemoveTree(fs + {temp, out, input}, temp))
    else
      CleanupLeaves(fs, temp, out, input);
      Call(Result(id, input, run, metaFile), RemoveTree(fs + {temp, out, input}, temp))
  }

  /** `convert_pdf` on the corrected input path: the file system is left exactly as it was found. */
  function ConvertPdf(fs: set<string>, filename: string, id: string, writeFault: Option<string>, run: Run, metaFile: Option<string>): (r: Call)
    requires forall p :: p in fs ==> !Inside(p, TempDir(id))
    ensures writeFault.Some? ==> r.result == Failed(id, Unexpected + writeFault.value)
    ensures writeFault.None? ==> r.result == Result(id, InputFile(id, filename), run, metaFile)
    ensures r.fs == fs
  {
    Convert(fs, InputFile(id, filename), id, writeFault, run, metaFile)
  }

  /**
   * `convert_pdf` as written: the only path that can outlive the call is the
   * input itself, and it does exactly when it was written and the join put
   * it outside the temp directory, or it was there before.
   */
  function ConvertPdfAsWritten(fs: set<string>, filename: string, id: string, writeFault: Option<string>, run: Run, metaFile: Option<string>): (r: Call)
    requires forall p :: p in fs ==> !Inside(p, TempDir(id))
    ensures writeFault.Some? ==> r.result == Failed(id, Unexpected + writeFault.value)
    ensures writeFault.None? ==> r.result == Result(id, InputFileAsWritten(id, filename), run, metaFile)
    ensures fs <= r.fs <= fs + {InputFileAsWritten(id, filename)}
    ensures InputFileAsWritten(id, filename) in r.fs <==>
      && !Inside(InputFileAsWritten(id, filename), TempDir(id))
      && (writeFault.None? || InputFileAsWritten(id, filename) in fs)
  {
    Convert(fs, InputFileAsWritten(id, filename), id, writeFault, run, metaFile)
  }

  lemma OutputDirInsideTemp(id: string)
    ensures Inside(OutputDir(id), TempDir(id))
  {
    var t := TempDir(id);
    assert OutputDir(id) == (t + "/") + "output";
    assert (t + "/") <= (t + "/") + "output";
  }

  /** Removing `d` after creating it and two paths inside it, where nothing older was inside, restores the file system. */
  lemma CleanupRestores(fs: set<string>, d: string, a: string, b: string)
    requires forall p :: p in fs ==> !Inside(p, d)
    requires Inside(a, d) && Inside(b, d)
    ensures RemoveTree(fs + {d, a, b}, d) == fs
  {
  }

  /** A created path outside `d` is the one thing removing `d` leaves behind. */
  lemma CleanupLeaves(fs: set<string>, d: string, a: string, b: string)
    requires forall p :: p in fs ==> !Inside(p, d)
    requires Inside(a, d) && !Inside(b, d)
    ensures RemoveTree(fs + {d, a, b}, d) == fs + {b}
  {
  }

  /** For an upload named `<base>.pdf`, the result's file name is `<base>.md`. */
  lemma {:induction false} ResultNameSwapsExtension(fs: set<string>, base: string, id: string, markdown: string, metaFile: Option<string>)
    requires forall p :: p in fs ==> !Inside(p, TempDir(id))
    requires base != "" && '/' !in base
    ensures ConvertPdf(fs, base + ".pdf", id, None, Exited(0, "", [markdown]), metaFile).result.filename == Some(base + ".md")
  {
    var filename := base + ".pdf";
    var run := Exited(0, "", [markdown]);
    SlashFreeConcat(base, ".pdf");
    NameOfSlashFree(filename);
    var input := InputFile(id, filename);
    assert Name(input) == filename;
    assert filename == base + "." + "pdf";
    StemDropsExtension(base, "pdf");
    assert Result(id, input, run, metaFile).filename == Some(Stem(filename) + ".md");
  }

  lemma SlashFreeConcat(a: string, b: string)
    requires '/' !in a && '/' !in b
    ensures '/' !in a + b
  {
  }

  /**
   * With the as-written join, an absolute file name puts the input outside
   * the temp directory, so once written it is still there after the call
   * returns, whatever the conversion gave.
   */
  lemma AbsoluteFilenameSurvivesCleanup(fs: set<string>, run: Run, metaFile: Option<string>)
    requires forall p :: p in fs ==> !Inside(p, TempDir("r"))
    ensures InputFileAsWritten("r", "/x.pdf") == "/x.pdf"
    ensures "/x.pdf" in ConvertPdfAsWritten(fs, "/x.pdf", "r", None, run, metaFile).fs
  {
    var input := InputFileAsWritten("r", "/x.pdf");
    assert |input| == 6 && |TempDir("r")| == 13;
    assert !Inside(input, TempDir("r"));
  }
}

=== FILE: paths.dfy ===
/**
 * Paths as strings and the file system as the set of paths that exist.
 * Only the paths the coordinator itself creates are tracked; `rmtree`
 * removes a directory and every path below it.
 */
module Paths {

  /** `p` lies below directory `d`. */
  predicate Under(p: string, d: string)
  {
    d + "/" <= p
  }

  /** `p` is `d` or lies below it: what `shutil.rmtree(d)` deletes. */
  predicate Inside(p: string, d: string)
  {
    p == d || Under(p, d)
  }

  /** `shutil.rmtree(d)` with errors ignored. */
  function RemoveTree(fs: set<string>, d: string): (r: set<string>)
    ensures r <= fs
    ensures forall p :: p in r ==> !Inside(p, d)
    ensures forall p :: p in fs && !Inside(p, d) ==> p in r
  {
    set p | p in fs && !Inside(p, d)
  }

  /**
   * `Path(d) / name` as pathlib computes it: an absolute `name` replaces
   * `d`, an empty one leaves `d`, anything else is appended after a slash.
   */
  function JoinPath(d: string, name: string): (r: string)
    ensures name == "" ==> r == d
    ensures name != "" && name[0] == '/' ==> r == name
    ensures name != "" && name[0] != '/' ==> Under(r, d) && r[|d| + 1..] == name
  {
    if name == "" then d
    else if name[0] == '/' then name
    else d + "/" + name
  }

  /** `Path(p).name`: the text after the last slash. */
  function Name(p: string): (r: string)
    ensures '/' !in r
    ensures |r| <= |p| && p[|p| - |r|..] == r
    ensures |r| < |p| ==> p[|p| - |r| - 1] == '/'
  {
    if p == [] then []
    else if p[|p| - 1] == '/' then []
    else Name(p[..|p| - 1]) + [p[|p| - 1]]
  }

  /** The last component sits after the last slash, wherever the prefix ends. */
  lemma {:induction false} NameAfterSlash(prefix: string, rest: string)
    requires '/' !in rest
    ensures Name(prefix + "/" + rest) == rest
    decreases |rest|
  {
    var p := prefix + "/" + rest;
    if rest != [] {
      assert p[..|p| - 1] == prefix + "/" + rest[..|rest| - 1];
      NameAfterSlash(prefix, rest[..|rest| - 1]);
      assert rest == rest[..|rest| - 1] + [rest[|rest| - 1]];
    }
  }

  /** Joining a slash-free component below `d` always stays inside `d`. */
  lemma JoinComponentStaysInside(d: string, name: string)
    requires '/' !in name
    ensures Inside(JoinPath(d, name), d)
  {
    if name != "" {
      assert name[0] in name;
    }
  }

  /** A name without slashes is its own last component. */
  lemma NameOfSlashFree(s: string)
    ensures '/' !in s ==> Name(s) == s
  {
  }
}

=== FILE: text.dfy ===
/** The ASCII slice of Python's `str` methods the servers use. */
module Text {

  /** `c.lower()` restricted to ASCII. */
  function LowerChar(c: char): char
  {
    if 'A' <= c <= 'Z' then (c as int + 32) as char else c
  }

  /** `s.lower()` restricted to ASCII, one character at a time. */
  function Lower(s: string): (r: string)
    ensures |r| == |s|
    ensures forall i :: 0 <= i < |s| ==> r[i] == LowerChar(s[i])
  {
    if s == [] then [] else [LowerChar(s[0])] + Lower(s[1..])
  }

  /** `Lower(s)` is `w` when the two agree character by character. */
  lemma LowerIs(s: string, w: string)
    requires |s| == |w| && forall i :: 0 <= i < |s| ==> LowerChar(s[i]) == w[i]
    ensures Lower(s) == w
  {
  }

  /** `s.endswith(suffix)`. */
  predicate EndsWith(s: string, suffix: string)
  {
    |suffix| <= |s| && s[|s| - |suffix|..] == suffix
  }

  /** `sep.join(parts)`. */
  function Join(parts: seq<string>, sep: string): string
  {
    if |parts| == 0 then ""
    else if |parts| == 1 then parts[0]
    else parts[0] + sep + Join(parts[1..], sep)
  }

  /** Below two or more parts, a join is the first part, the separator, and the join of the rest. */
  lemma JoinStep(parts: seq<string>, k: nat, sep: string)
    requires k + 1 < |parts|
    ensures Join(parts[k..], sep) == parts[k] + (sep + Join(parts[k + 1..], sep))
  {
    assert parts[k..][1..] == parts[k + 1..];
  }

  /** The filename test every server applies: `name.lower().endswith('.pdf')`. */
  predicate IsPdfName(name: string)
  {
    EndsWith(Lower(name), ".pdf")
  }

  /** Lower-casing twice changes nothing more than lower-casing once. */
  lemma LowerIdempotent(s: string)
    ensures Lower(Lower(s)) == Lower(s)
  {
  }

  /**
   * The suffix test, stated one character at a time without `Lower`: the
   * name ends in a dot followed by `p`, `d`, `f` in either case.
   */
  lemma {:induction false} IsPdfNameCharwise(name: string)
    ensures IsPdfName(name) <==>
      && |name| >= 4
      && name[|name| - 4] == '.'
      && name[|name| - 3] in {'p', 'P'}
      && name[|name| - 2] in {'d', 'D'}
      && name[|name| - 1] in {'f', 'F'}
  {
    var l := Lower(name);
    var n := |name|;
    if n >= 4 {
      assert l[n - 4..] == [l[n - 4], l[n - 3], l[n - 2], l[n - 1]];
    }
  }
}

=== FILE: values.dfy ===
/** Python values the coordinator passes around: optional values and their truthiness. */
module Values {

  /** A Python value that may be `None`. */
  datatype Option<+T> = None | Some(value: T)

  /** Python truthiness of an optional string (`if key:`): neither `None` nor `""`. */
  predicate Truthy(v: Option<string>)
  {
    v.Some? && v.value != ""
  }
}
